=== FILE: README.md ===
# JFFS2 request adapter for the Phoenix-RTOS file server

This project models the request adapter of the Phoenix-RTOS JFFS2 server (`jffs2/jffs2.c`). The
adapter sits between the server's message loop and the JFFS2 engine. It turns each file-protocol
message into calls on the engine: lookup, getattr/setattr/truncate, link, unlink, create, destroy,
readdir, read and write. The model states and proves what those handlers do to their replies and
to the engine's state.

The engine is modelled as an immutable state (`Engine.State`). It holds:

- the inode cache: a map from inode number to the VFS and JFFS2 fields the adapter touches, such
  as mode, uid, gid, size, blocks, rdev, parent, highest version, metadata node and directory
  entries;
- the highest inode number;
- the log of raw inode nodes;
- the server's port;
- three counters that track pairing: the multiset of inode references taken by `jffs2_iget`,
  the set of inode semaphores held, and whether a space reservation is outstanding.

Engine primitives whose code lies outside the adapter are functions of this state. They take the
success or failure of the call as a parameter (`EngineCode`, zero or a negated errno). Examples
are the `i_op` calls, `jffs2_reserve_space`, `jffs2_write_dnode`,
`jffs2_add_full_dnode_to_inode`, `jffs2_read_inode_range`, `jffs2_write_inode_range` and
`jffs2_readdir`. `Engine.Consistent` is what the model assumes of the engine's inode cache:

- id 0 names no inode;
- every cached parent and every directory entry names a live inode;
- ids never exceed the highest one handed out;
- metadata nodes lie in the log.

Every request keeps it (`Server.ServeKeepsConsistent`). The cached parent is the engine's
`pino_nlink` field. For a directory that field holds the parent; for any other inode it holds the
link count. The model treats it as a parent for every inode, which is an idealisation (see
"## Left out").

Path names and entry names are Dafny strings. The source reads them up to their NUL terminator,
so the model takes every name to contain no `'\0'`: its end is the end of the string.

Modules follow the source's structure:

| module | file | covers |
|---|---|---|
| `Posix` | posix.dfy | errno values, mode-format bits, C `int` and 16-bit conversions |
| `Engine` | engine.dfy | the engine state and primitives |
| `PathLookup` | lookup.dfy | `jffs2_srv_lookup` |
| `LookupFacts` | lookup_facts.dfy | properties of the resolver |
| `Attributes` | attributes.dfy | getattr, setattr, truncate |
| `DirOps` | dirops.dfy | link, unlink, create, destroy, readdir |
| `DirFacts` | dir_facts.dfy | properties of the directory mutators |
| `ReadWrite` | readwrite.dfy | read, prepare_write, write |
| `ReadWriteFacts` | rw_facts.dfy | properties of the data paths |
| `Server` | server.dfy | the `switch (msg.type)` table of the server loop |

The model follows the code as written, including behaviour that a reader of the function names
would not expect. In particular:

- The resolver reports success by the length it consumed and never by `EOK`. So `unlink` never
  reaches the engine, and `create`'s "already exists" test never fires.
- A directory create falls through into `default` and fails with EINVAL after the engine's mkdir
  has run.
- `readdir` tests bit 14 of the mode rather than `S_ISDIR`.
- `write` extends a file to the request length rather than to `offs + len`, and returns 0 rather
  than a byte count. A 10-byte write at offset 1000 into an empty file leaves it 10 bytes long,
  not 1010.
- Three exits keep an inode reference they took:
  - the resolver's `..` step;
  - readdir's failed guard;
  - a read past the end of the file.

## Model

| member | source | states |
|---|---|---|
| Posix.Format | jffs2/jffs2.c:205-209 | the format field is a multiple of 0x1000 no larger than S_IFMT, and removing it from the mode leaves exactly the permission bits and the bits above 16 |
| Posix.Bit14OfFormat | jffs2/jffs2.c:390 | bit 14 of a mode is bit 14 of its format field, so the readdir test depends on the file type only |
| Posix.Bit14Formats | jffs2/jffs2.c:390 | the bit-14 test accepts directories, block devices and sockets, and refuses regular files, character devices, FIFOs and symlinks |
| Posix.ToI32 | jffs2/jffs2.c:201 | conversion to C `int` agrees with the value modulo 2^32 and is the identity on the `int` range |
| Posix.Low16 | jffs2/jffs2.c:487-488 | the low 16 bits: below 0x10000 and congruent to the input modulo 0x10000 |
| Posix.High | jffs2/jffs2.c:136 | `m & ~0xffff` is a multiple of 0x10000 within 0xffff below the mode |
| Engine.Acquire | jffs2/jffs2.c:48-51 | `jffs2_iget` succeeds exactly for a live inode, and then takes one reference and changes nothing else |
| Engine.Release | jffs2/jffs2.c:102 | `iput` drops one reference taken before and changes nothing else |
| Engine.Lock | jffs2/jffs2.c:130 | `mutex_lock` marks the inode's semaphore held and changes nothing else |
| Engine.Unlock | jffs2/jffs2.c:161 | `mutex_unlock` marks the inode's semaphore free and changes nothing else |
| Engine.EngineNew | jffs2/jffs2.c:351 | a successful create/mkdir allocates the next inode number, holding an empty inode of the given mode under `dir`, and enters it under `name`; the directory changes only in that entry and every other inode is untouched; a failed one changes nothing |
| Engine.EngineNewConsistent | jffs2/jffs2.c:351-355 | creating an inode keeps the filesystem consistent |
| Engine.EngineLink | jffs2/jffs2.c:259 | a successful link enters `target` under `name` and allocates nothing; the directory changes only in that entry and every other inode is untouched; a failed one changes nothing |
| Engine.EngineLinkConsistent | jffs2/jffs2.c:259 | linking a live inode keeps the filesystem consistent |
| Engine.EngineUnlink | jffs2/jffs2.c:309 | a successful unlink removes `name` from the directory, which changes in nothing else, and leaves every other inode untouched; a failed one changes nothing |
| Engine.EngineUnlinkConsistent | jffs2/jffs2.c:309 | removing an entry keeps the filesystem consistent |
| Engine.UpdateConsistent | jffs2/jffs2.c:116-167 | a change confined to one inode's attributes, size and metadata keeps the filesystem consistent |
| Engine.MarkObsolete | jffs2/jffs2.c:510 | marking a node obsolete flags that node and leaves every other node of the log as it was |
| Engine.Reserve | jffs2/jffs2.c:471-474 | a successful `jffs2_reserve_space` leaves a reservation outstanding and changes no contents |
| Engine.CompleteReservation | jffs2/jffs2.c:525 | `jffs2_complete_reservation` gives the reservation back and changes no contents |
| PathLookup.StartDir | jffs2/jffs2.c:43-44 | directory id 0 stands for the root, id 1; any other id is kept |
| PathLookup.SkipSlashes | jffs2/jffs2.c:62-65 | the skip stops at the first non-slash character, and everything skipped is a slash |
| PathLookup.ComponentEnd | jffs2/jffs2.c:67-70 | a component runs to the first slash or the end of the path, and contains no slash |
| PathLookup.NextStep | jffs2/jffs2.c:61-101 | one loop iteration after the slash skip: `.` steps one character and `..` two, to the cached parent; a name the directory has descends to its entry and ends at the component's end; any other name is a miss at the component's start, past the skipped slashes |
| PathLookup.Walk | jffs2/jffs2.c:61-101 | the walk never moves backwards or beyond the path and leaves the engine's contents alone; it consumes the whole path unless it stops at a component that the inode it reached does not match; its result id is the inode it ended at, unless no step set it, in which case it is still at its starting inode and took no `..` step |
| PathLookup.WalkHeld | jffs2/jffs2.c:84-103 | the walk's references are the entry ones, with the current directory's swapped for the final one's, plus one per `..` step |
| PathLookup.UpStepCount | jffs2/jffs2.c:84 | reference count of a `..` step: the re-acquired parent adds to the leaked references |
| PathLookup.DescendStepCount | jffs2/jffs2.c:102-103 | reference count of a descent: the found inode's reference replaces the current one's |
| PathLookup.FinalReleaseCount | jffs2/jffs2.c:107 | after the final `iput` only the leaked references remain |
| PathLookup.Lookup | jffs2/jffs2.c:36-113 | EINVAL exactly when the start directory is missing, and ENOTDIR exactly when it is not a directory (releasing it); a non-negative result names a live inode and is the path's length or a position where a component starts that this inode does not match; the references it keeps are `leaked`, all naming live inodes, and it keeps none on an EINVAL or ENOTDIR exit |
| LookupFacts.WalkProgress | jffs2/jffs2.c:72-100 | every step that sets the result id consumes at least one character |
| LookupFacts.LookupNeverOk | jffs2/jffs2.c:106-112 | the resolver never returns EOK: success is a length of at least 1 with a nonzero result id |
| LookupFacts.NoDotDotNoUpStep | jffs2/jffs2.c:78-85 | from a component boundary, a path with no `..` component takes no `..` step, and a `.` or descent step lands on a boundary again |
| LookupFacts.NoDotDotHasNoDotDotComponent | jffs2/jffs2.c:79 | a path without two consecutive dots has no component equal to `..` |
| LookupFacts.SkipToComponentStart | jffs2/jffs2.c:62-65 | from the start of the path or a slash, the slash skip lands at the start of a component |
| LookupFacts.WalkNoDotDotNoLeak | jffs2/jffs2.c:78-85 | from a component boundary, a walk over a path with no `..` component leaves no reference behind; names with dots inside them, such as `a..b`, are covered |
| LookupFacts.LookupNoDotDotBalanced | jffs2/jffs2.c:36-113 | a lookup whose path has no `..` component releases every reference it takes |
| LookupFacts.LookupDot | jffs2/jffs2.c:72-77 | `.` resolves to the start directory and consumes one character |
| LookupFacts.LookupDotDot | jffs2/jffs2.c:78-85 | `..` resolves to the cached parent, consumes two characters, and leaks the start directory's reference |
| LookupFacts.PlainNameComponent | jffs2/jffs2.c:67-70 | a name without slashes is a single component |
| LookupFacts.LookupPlainNameFound | jffs2/jffs2.c:88-101 | an existing entry resolves to its inode, consumes its length and keeps references balanced |
| LookupFacts.LookupPlainNameMissing | jffs2/jffs2.c:92-110 | a name that is not an entry gives ENOENT and keeps references balanced |
| LookupFacts.LookupStopsAtMiss | jffs2/jffs2.c:92-95 | a first component that is not an entry gives ENOENT, whatever follows it |
| LookupFacts.LookupEnoent | jffs2/jffs2.c:109-110 | ENOENT exactly when the start directory is a live directory and nothing resolved: the path is empty or its first component is a miss |
| LookupFacts.LookupDescend | jffs2/jffs2.c:88-103 | a found plain first component hands the rest of the walk to its inode, at the position after the name, with the start directory's reference released |
| LookupFacts.MissAfterSlash | jffs2/jffs2.c:61-95 | at a slash followed by a name the current inode lacks, the walk stops just past the slash with the result id unchanged |
| LookupFacts.LookupStopsAtLaterMiss | jffs2/jffs2.c:92-112 | a miss after a resolved component is not ENOENT: the result is the length up to the missing component and the inode resolved before it, with references balanced |
| LookupFacts.LaterMissWalk | jffs2/jffs2.c:61-101 | the walk of `name/next…` descends into the entry `name` and stops just past the slash when that entry has no `next` |
| LookupFacts.LookupFromWalk | jffs2/jffs2.c:104-112 | a walk from the start directory that set a result determines the lookup: the consumed length, the result id, the leaked references and the final release |
| Attributes.Blocks | jffs2/jffs2.c:585 | `(size + 511) >> 9` is the least number of 512-byte blocks covering `size` |
| Attributes.MergeMode | jffs2/jffs2.c:136 | the merged mode has the argument's low 16 bits and the old mode's bits above them |
| Attributes.TypeCode | jffs2/jffs2.c:204-213 | otDir, otFile and otDev exactly for directories, regular files and character devices; otUnknown otherwise |
| Attributes.Request | jffs2/jffs2.c:132-157 | the iattr sets mode, uid, gid or size exactly for its selector, the mode keeping the inode's bits above the low 16; the port and unknown selectors leave it unset |
| Attributes.EngineSetattr | jffs2/jffs2.c:163 | the engine's setattr, as modelled, changes one inode's fields only on success, and allocates and logs nothing |
| Attributes.Setattr | jffs2/jffs2.c:116-167 | ENOENT for a missing inode; the port selector stores rdev whatever the engine returns; on engine success mode, uid, gid and size (with blocks) are stored as selected; a failed call changes nothing else; references are balanced |
| Attributes.SetattrKeepsConsistent | jffs2/jffs2.c:116-167 | setattr keeps the filesystem consistent |
| Attributes.Truncate | jffs2/jffs2.c:597-600 | truncate is setattr of the size: a length that fits in `int` sets size and blocks, and a larger one turns negative and is refused by the modelled engine setattr |
| Attributes.Getattr | jffs2/jffs2.c:170-224 | EINVAL for id 0, ENOENT for a missing inode, otherwise EOK with the selected field converted to C `int`; an unknown selector or an error leaves the caller's value; nothing changes and references are balanced |
| DirOps.Link | jffs2/jffs2.c:227-269 | EINVAL for a zero id or empty name, ENOENT when either inode is missing, otherwise the engine's result; success adds the entry and changes nothing else in the directory or any other inode, failure changes nothing; references are balanced |
| DirFacts.LinkKeepsConsistent | jffs2/jffs2.c:227-269 | link keeps the filesystem consistent |
| DirOps.Unlink | jffs2/jffs2.c:272-293 | EINVAL for a zero id or empty name and ENOENT for a missing directory, with nothing changed |
| DirOps.UnlinkTarget | jffs2/jffs2.c:295-317 | past a successful resolution: ENOENT for a missing target, otherwise the engine's result; success removes the entry and changes nothing else in the directory or any other inode, failure changes nothing; the directory's reference is dropped |
| DirFacts.UnlinkNeverRemoves | jffs2/jffs2.c:290-293 | unlink always fails, with EINVAL or ENOENT, and removes nothing |
| DirFacts.UnlinkHeld | jffs2/jffs2.c:285-292 | unlink leaves exactly the references its lookup leaked |
| DirOps.DirMode | jffs2/jffs2.c:355 | the mode the modelled mkdir stores: a directory mode with the request's permission bits |
| DirOps.Create | jffs2/jffs2.c:321-341 | ENOENT for a missing directory and ENOTDIR for a non-directory, with nothing changed; success only for a regular file, which gets the next inode number as an empty inode of the fixed mode and a new entry, with the directory otherwise and every other inode unchanged; `oid->id` changes only on success |
| DirOps.CreateInDir | jffs2/jffs2.c:347-366 | the type switch: a file gets the engine's create result and the fixed mode; a directory runs mkdir and still fails with EINVAL; any other type is EINVAL with nothing changed |
| DirFacts.CreateSkipsExistenceTest | jffs2/jffs2.c:338-341 | past the directory checks create always proceeds to the type switch, on the engine contents it started with |
| DirFacts.CreateFileReachesEngine | jffs2/jffs2.c:348-352 | a file create in a live directory returns exactly the engine's result, even for a name that is already an entry |
| DirFacts.CreateDirFallsThrough | jffs2/jffs2.c:353-358 | a directory create returns EINVAL, yet a successful mkdir has allocated the directory and entered it |
| DirFacts.MkdirInSameContents | jffs2/jffs2.c:353-355 | the mkdir of the directory case allocates a directory inode and enters it under the name |
| DirFacts.CreateKeepsConsistent | jffs2/jffs2.c:321-367 | create keeps the filesystem consistent for every type and engine result |
| DirOps.Destroy | jffs2/jffs2.c:370-373 | destroy succeeds and changes nothing |
| DirOps.Readdir | jffs2/jffs2.c:376-400 | EINVAL for a zero or missing id; a failed bit-14 guard gives EINVAL and keeps the reference; otherwise the engine's emit count, with references balanced |
| DirFacts.ReaddirGuard | jffs2/jffs2.c:390-399 | directories, block devices and sockets reach the enumeration; a regular file is refused and keeps its reference |
| ReadWrite.Clamp | jffs2/jffs2.c:446-447 | the read length is within the request and the file, and is either the whole request or reaches the end of the file |
| ReadWrite.Read | jffs2/jffs2.c:413-453 | EINVAL for id 0 or a missing inode, EISDIR for a directory, 0 past the end with the reference kept, otherwise the engine's error or the clamped length; nothing changes |
| ReadWriteFacts.ReadWithinFile | jffs2/jffs2.c:439-447 | a successful read never reports bytes past the end and reports every requested byte before it |
| ReadWriteFacts.ReadAtEndIsEmpty | jffs2/jffs2.c:439-440 | reads at and past the end both return 0; only the latter leaks the reference |
| ReadWrite.HoleNode | jffs2/jffs2.c:484-496 | the hole node covers the old size up to `len`, carries no payload, uses zero compression, has its CRCs set and the 16-bit uid/gid |
| ReadWrite.ExtendCode | jffs2/jffs2.c:466-524 | the extend phase's result is 0 when no extension is needed, otherwise the first failure among reserve, dnode write and add |
| ReadWrite.PrepareWrite | jffs2/jffs2.c:457-531 | no extension or a failed reservation changes nothing; the version is bumped once space is reserved; a written hole is logged, obsolete if add failed; metadata is obsoleted either way; only success sets the size to `len`; the lock and reservation are given back |
| ReadWrite.Commit | jffs2/jffs2.c:507-527 | after the dnode write: the old metadata node is obsoleted and cleared, and add's failure obsoletes the hole and keeps the size, while success sets it |
| ReadWriteFacts.ExtendBacksNewSize | jffs2/jffs2.c:489-526 | after a successful extend the new end of file is backed by a live hole node that starts at the old end |
| ReadWriteFacts.ExtendRollback | jffs2/jffs2.c:515-524 | a failed add keeps the size and leaves the hole node in the log marked obsolete |
| ReadWriteFacts.ExtendIdempotent | jffs2/jffs2.c:466 | after a successful extend, extending to the same length again does nothing |
| ReadWriteFacts.PrepareWriteKeepsConsistent | jffs2/jffs2.c:457-531 | the extend phase keeps the filesystem consistent |
| ReadWrite.Write | jffs2/jffs2.c:533-594 | EINVAL, ENOMEM, EINVAL and EISDIR in the source's order with nothing changed; an extend failure is returned with the size unchanged; otherwise the range write's result, with size raised to `writelen` (and blocks) only when that exceeds the extended size; never a byte count |
| ReadWriteFacts.WriteKeepsConsistent | jffs2/jffs2.c:533-594 | write keeps the filesystem consistent |
| ReadWriteFacts.WriteSizeIgnoresOffset | jffs2/jffs2.c:564-585 | a 10-byte write at offset 1000 into an empty file returns 0 and leaves the size 10 |
| ReadWriteFacts.FailedWriteKeepsHole | jffs2/jffs2.c:564-589 | a failed range write after a successful extend keeps the size at `len` and the hole node live |
| Server.Serve | jffs2/jffs2.c:632-690 | open, close, setattr and a type the switch has no case for reply with nothing; devctl is EINVAL; open, close, destroy and an unknown type change nothing; getattr, create and lookup fill their own reply fields; the port never changes |
| Server.ServeKeepsConsistent | jffs2/jffs2.c:632-690 | every request keeps the filesystem consistent |
| Server.ServeAll | jffs2/jffs2.c:630-693 | any sequence of requests keeps the filesystem consistent and the port fixed |
| Server.ReadOnlyRequests | jffs2/jffs2.c:632-690 | only write, truncate, setattr, create and link can change the engine's contents |

## Left out

- The message loop's transport is not modelled: `portCreate`, `portRegister`, `msgRecv` and `msgRespond`. Only the dispatch table is, as `Server.Serve`.
- Engine internals are parameters: every foreign call's outcome is an input, and its effect is the abstract one described above. The exceptions are Attributes.EngineSetattr and DirOps.DirMode, below.
- Attributes.EngineSetattr: a negative size returns EINVAL and changes nothing even when the outcome `code` is 0. Nothing in the adapter shows what the engine's `i_op->setattr` does with a negative `ia_size`; this is an assumption of the model, and the refusal that Attributes.Setattr and Attributes.Truncate state for sizes at or above 2^31 rests on it.
- PathLookup.NextStep: the `..` step reads `pino_nlink`, which is the parent only for a directory. For a non-directory it is the link count, so `f/..` after a regular file `f` re-acquires an inode numbered by that count. The model keeps one cached parent per inode and moves to it instead.
- PathLookup.Walk: the `jffs2_iget` of a `..` step is not checked for an error before the inode is used. The model takes it to succeed, because `Engine.Consistent` makes every cached parent live; the idealisation is the one in the line above.
- PathLookup.Walk: a component under a non-directory goes to that inode's `i_op->lookup`, which a regular file does not provide. The model consults the inode's entries instead, so such a step is a miss unless a link on a non-directory (see DirOps.Link) has given it entries.
- DirOps.Link: the source calls the directory's `i_op->link` without testing that `dir` is a directory. A regular file provides no such operation. The model treats a non-directory `dir` like a directory and lets the engine's outcome decide, so a successful outcome adds an entry to it.
- DirOps.UnlinkTarget: the same holds for `i_op->unlink` on a non-directory `dir`. (The unlink handler never gets this far; see DirFacts.UnlinkNeverRemoves.)
- Names contain no `'\0'`. The source measures a name with `strlen` and walks a path to its NUL terminator; the model takes the whole string, so an empty name is `|name| == 0` and the walk ends at the string's end.
- The bytes of reads and writes are not modelled, and neither are the data nodes `jffs2_write_inode_range` writes. Its result and `writelen` are inputs.
- CRC values and the `cpu_to_je*` byte-order conversions: a node only records that its checksums are set.
- Timestamps (`get_seconds`, `i_ctime`, `i_mtime`) and `printf` logging are not modelled.
- `malloc`, `strdup` and `free` are not modelled, nor the leaks they cause: create's dentry, write's raw inode on its early exits.
- The semaphore as a concurrency primitive is left out. It is only a held/not-held set.
- Attributes.EngineSetattr: an uninitialised `iattr` (port and unknown selectors) is modelled as changing nothing; only the engine's result code is kept, because the C behaviour is undefined.
- Attributes.EngineSetattr: the engine's setattr is an abstraction that stores the requested field. The engine itself also writes a new metadata node to the log and raises `highest_version`; the model leaves the log and the version alone.
- DirOps.DirMode: the adapter passes the request's whole `mode` to the engine's mkdir and clears no bits. The model assumes the engine keeps only the permission bits and sets the directory format. An engine that ORs `S_IFDIR` into the request's mode would store a non-directory format for a request such as 0x81FF, so the directory results of DirFacts.CreateDirFallsThrough and DirFacts.MkdirInSameContents rest on this assumption.
- PathLookup.Lookup: the assignment of `res->port` is not modelled. The result carries only `res->id`.
- ReadWrite.Read: the `IS_ERR` check comes after `JFFS2_INODE_INFO(inode)` and `inode->i_sb` are dereferenced. A missing inode is modelled as the checked EINVAL exit, not as the crash the dereference would cause. The same holds for ReadWrite.Write.
- ReadWrite.PrepareWrite: `highest_version` is an unbounded counter. Its 32-bit wrap is not modelled.
- ReadWrite.Read: `offs_t` is taken as an unbounded integer. Inode sizes are 32-bit.
- DirOps.Unlink: its contract does not state reference accounting, which DirFacts.UnlinkHeld states. It does not state that the engine is never reached either; DirFacts.UnlinkNeverRemoves states that.
- DirOps.Create: the success clause is one direction only. The converse, that a file create in a live directory returns the engine's result, is DirFacts.CreateFileReachesEngine.
- The selector values `atMode`..`atPort` (0..5) and the object types `otDir`, `otFile`, `otDev` and `otUnknown` (0, 1, 2, 4) come from Phoenix headers that are not part of this model. Only `atSize` = 3 is fixed by `jffs2_srv_truncate`.
- `main`'s start-up is not modelled: port creation, engine initialisation and mounting at `/`.

=== FILE: attributes.dfy ===
/** Attribute translation: `jffs2_srv_getattr`, `jffs2_srv_setattr` and `jffs2_srv_truncate`.
    A selector picks an inode field; the type is derived from the mode's format bits. */
module Attributes {
  import opened Posix
  import opened Engine

  /** Attribute selectors of the Phoenix file protocol (sys/file.h, in declaration order;
      truncate's literal 3 fixes AT_SIZE). */
  const AT_MODE: int := 0
  const AT_UID: int := 1
  const AT_GID: int := 2
  const AT_SIZE: int := 3
  const AT_TYPE: int := 4
  const AT_PORT: int := 5

  /** The `struct iattr` handed to the engine's setattr. `Unspecified` stands for the
      uninitialised iattr of the port and unknown-selector paths. */
  datatype IAttr = SetMode(mode: nat) | SetUid(uid: int) | SetGid(gid: int) | SetSize(size: int) | Unspecified

  /** `i_blocks` as the adapter and the engine derive it: `(size + 511) >> 9`, the number
      of 512-byte blocks needed to hold `size` bytes. */
  function Blocks(size: nat): (b: nat)
    ensures b * 512 >= size
    ensures b == 0 || (b - 1) * 512 < size
  {
    (size + 511) / 512
  }

  /** `(i_mode & ~0xffff) | (attr & 0xffff)`: high bits of the old mode, low 16 of the
      argument. */
  function MergeMode(prior: nat, attr: int): (m: nat)
    ensures m % 0x10000 == attr % 0x10000
    ensures m / 0x10000 == prior / 0x10000
  {
    High(prior) + Low16(attr)
  }

  /** The value getattr reports for the type selector. */
  function TypeCode(mode: nat): (t: int)
    ensures t == OT_DIR <==> IsDir(mode)
    ensures t == OT_FILE <==> IsReg(mode)
    ensures t == OT_DEV <==> IsChr(mode)
    ensures t == OT_UNKNOWN <==> !IsDir(mode) && !IsReg(mode) && !IsChr(mode)
  {
    if IsDir(mode) then OT_DIR
    else if IsReg(mode) then OT_FILE
    else if IsChr(mode) then OT_DEV
    else OT_UNKNOWN
  }

  /** The iattr setattr builds for a selector: mode, uid, gid and size each set their own
      field, the mode keeping the inode's bits above the low 16; the port and any unknown
      selector leave the iattr unset. */
  function Request(ino: Inode, sel: int, attr: i32): (q: IAttr)
    ensures q.SetMode? <==> sel == AT_MODE
    ensures q.SetMode? ==> q.mode % 0x10000 == attr % 0x10000 && q.mode / 0x10000 == ino.mode / 0x10000
    ensures q.SetUid? <==> sel == AT_UID
    ensures q.SetUid? ==> q.uid == attr
    ensures q.SetGid? <==> sel == AT_GID
    ensures q.SetGid? ==> q.gid == attr
    ensures q.SetSize? <==> sel == AT_SIZE
    ensures q.SetSize? ==> q.size == attr
    ensures q.Unspecified? <==> !(AT_MODE <= sel <= AT_SIZE)
  {
    if sel == AT_MODE then SetMode(MergeMode(ino.mode, attr))
    else if sel == AT_UID then SetUid(attr)
    else if sel == AT_GID then SetGid(attr)
    else if sel == AT_SIZE then SetSize(attr)
    else Unspecified
  }

  /** The engine's setattr (`i_op->setattr`) with its outcome `code`. On success the requested
      field is stored; a negative size is refused with EINVAL, and what an uninitialised
      iattr does is not modelled (only its result `code` is). */
  function EngineSetattr(s: State, id: nat, req: IAttr, code: EngineCode): (r: (int, State))
    requires id in s.inodes
    ensures r.0 <= 0
    ensures r.0 != 0 || req.Unspecified? ==> r.1 == s
    ensures r.1.inodes.Keys == s.inodes.Keys && r.1.held == s.held && r.1.locked == s.locked
    ensures r.1.log == s.log && r.1.highestIno == s.highestIno && r.1.port == s.port && r.1.reserved == s.reserved
    ensures forall other :: other in s.inodes && other != id ==> r.1.inodes[other] == s.inodes[other]
  {
    var ino := s.inodes[id];
    if code != 0 then (code, s)
    else
      match req
      case SetMode(m) => (0, SetInode(s, id, ino.(mode := m)))
      case SetUid(u) => (0, SetInode(s, id, ino.(uid := u)))
      case SetGid(g) => (0, SetInode(s, id, ino.(gid := g)))
      case SetSize(n) =>
        if 0 <= n < 0x1_0000_0000 then (0, SetInode(s, id, ino.(size := n, blocks := Blocks(n))))
        else (-EINVAL, s)
      case Unspecified => (code, s)
  }

  datatype AttrOut = AttrOut(ret: int, s: State)

  /** `jffs2_srv_setattr(oid, type, attr)` with the engine's setattr outcome `code`. */
  function Setattr(s: State, id: nat, sel: int, attr: i32, code: EngineCode): (r: AttrOut)
    ensures id !in s.inodes ==> r.ret == -ENOENT && r.s == s
    ensures r.s.held == s.held
    ensures id !in s.locked ==> r.s.locked == s.locked
    ensures r.s.inodes.Keys == s.inodes.Keys && r.s.log == s.log && r.s.highestIno == s.highestIno
    ensures forall other :: other in s.inodes && other != id ==> r.s.inodes[other] == s.inodes[other]
    ensures id in s.inodes ==> r.ret <= 0
    // the port selector stores the value directly, whatever the engine then returns
    ensures id in s.inodes && sel == AT_PORT ==> r.s.inodes[id] == s.inodes[id].(rdev := attr)
    // on a failed engine call nothing but the port changes
    ensures id in s.inodes && code != 0 ==> r.ret == code
    ensures id in s.inodes && code != 0 && sel != AT_PORT ==> r.s.inodes[id] == s.inodes[id]
    ensures id in s.inodes && code == 0 && sel == AT_MODE ==>
      r.ret == 0 && r.s.inodes[id] == s.inodes[id].(mode := MergeMode(s.inodes[id].mode, attr))
    ensures id in s.inodes && code == 0 && sel == AT_UID ==> r.ret == 0 && r.s.inodes[id] == s.inodes[id].(uid := attr)
    ensures id in s.inodes && code == 0 && sel == AT_GID ==> r.ret == 0 && r.s.inodes[id] == s.inodes[id].(gid := attr)
    ensures id in s.inodes && code == 0 && sel == AT_SIZE && attr >= 0 ==>
      r.ret == 0 && r.s.inodes[id] == s.inodes[id].(size := attr, blocks := Blocks(attr))
    ensures id in s.inodes && sel == AT_SIZE && attr < 0 ==> r.ret < 0 && r.s.inodes[id] == s.inodes[id]
  {
    match Acquire(s, id)
    case None => AttrOut(-ENOENT, s)
    case Some(s1) =>
      var s2 := Lock(s1, id);
      var ino := s2.inodes[id];
      var s3 := if sel == AT_PORT then SetInode(s2, id, ino.(rdev := attr)) else s2;
      var req := Request(ino, sel, attr);
      // the semaphore is dropped before the engine call, which takes it itself
      var s4 := Unlock(s3, id);
      var (ret, s5) := EngineSetattr(s4, id, req, code);
      AttrOut(ret, Release(s5, id))
  }

  /** Setattr changes only attribute fields of one inode, so it keeps the filesystem
      consistent. */
  lemma SetattrKeepsConsistent(s: State, id: nat, sel: int, attr: i32, code: EngineCode)
    requires Consistent(s)
    ensures Consistent(Setattr(s, id, sel, attr, code).s)
  {
    var r := Setattr(s, id, sel, attr, code);
    if id in s.inodes {
      var s1 := Lock(s.(held := s.held + multiset{id}), id);
      var ino := s1.inodes[id];
      var s3 := if sel == AT_PORT then SetInode(s1, id, ino.(rdev := attr)) else s1;
      var s4 := Unlock(s3, id);
      var e := EngineSetattr(s4, id, Request(ino, sel, attr), code);
      assert r.s.inodes[id].parent == s.inodes[id].parent && r.s.inodes[id].entries == s.inodes[id].entries
        && r.s.inodes[id].metadata == s.inodes[id].metadata;
      UpdateConsistent(s, r.s, id);
    }
  }

  /** `jffs2_srv_truncate(oid, len)`: setattr of the size selector, with the length passed
      through C `int`. */
  function Truncate(s: State, id: nat, len: u32, code: EngineCode): (r: AttrOut)
    ensures r.s.held == s.held && r.s.inodes.Keys == s.inodes.Keys
    ensures id in s.inodes && code == 0 && len < 0x8000_0000 ==>
      r.ret == 0 && r.s.inodes[id].size == len && r.s.inodes[id].blocks == Blocks(len)
    ensures id in s.inodes && len >= 0x8000_0000 ==> r.ret < 0 && r.s.inodes[id] == s.inodes[id]
  {
    Setattr(s, id, AT_SIZE, ToI32(len), code)
  }

  datatype GetOut = GetOut(ret: int, val: int, s: State)

  /** `jffs2_srv_getattr(oid, type, attr)`; `prev` is the value `*attr` held before the call,
      which an unknown selector leaves in place. Every field is stored through the C `int`
      that `attr` points to. */
  function Getattr(s: State, id: nat, sel: int, prev: int): (r: GetOut)
    ensures id == 0 ==> r.ret == -EINVAL
    ensures id != 0 && id !in s.inodes ==> r.ret == -ENOENT
    ensures id != 0 && id in s.inodes ==> r.ret == EOK
    ensures r.ret != EOK ==> r.val == prev
    ensures SameContents(s, r.s) && r.s.held == s.held && r.s.reserved == s.reserved
    ensures id !in s.locked ==> r.s.locked == s.locked
    ensures r.ret == EOK && sel == AT_MODE ==> r.val == ToI32(s.inodes[id].mode)
    ensures r.ret == EOK && sel == AT_UID ==> r.val == ToI32(s.inodes[id].uid)
    ensures r.ret == EOK && sel == AT_GID ==> r.val == ToI32(s.inodes[id].gid)
    ensures r.ret == EOK && sel == AT_SIZE ==> r.val == ToI32(s.inodes[id].size)
    ensures r.ret == EOK && sel == AT_TYPE ==> r.val == TypeCode(s.inodes[id].mode)
    ensures r.ret == EOK && sel == AT_PORT ==> r.val == ToI32(s.inodes[id].rdev)
    ensures r.ret == EOK && !(AT_MODE <= sel <= AT_PORT) ==> r.val == prev
  {
    if id == 0 then GetOut(-EINVAL, prev, s)
    else
      match Acquire(s, id)
      case None => GetOut(-ENOENT, prev, s)
      case Some(s1) =>
        var s2 := Lock(s1, id);
        var ino := s2.inodes[id];
        var v :=
          if sel == AT_MODE then ToI32(ino.mode)
          else if sel == AT_UID then ToI32(ino.uid)
          else if sel == AT_GID then ToI32(ino.gid)
          else if sel == AT_SIZE then ToI32(ino.size)
          else if sel == AT_TYPE then TypeCode(ino.mode)
          else if sel == AT_PORT then ToI32(ino.rdev)
          else prev;
        GetOut(EOK, v, Release(Unlock(s2, id), id))
  }
}

=== FILE: dir_facts.dfy ===
/** Properties of the directory mutators: which of them keep the filesystem consistent, and
    what the resolver's return convention does to unlink and create. */
module DirFacts {
  import opened Posix
  import opened Engine
  import opened PathLookup
  import opened LookupFacts
  import opened DirOps

  /** Link keeps the filesystem consistent: it only ever adds an entry naming a live inode. */
  lemma LinkKeepsConsistent(s: State, dir: nat, name: string, target: nat, code: EngineCode)
    requires Consistent(s)
    ensures Consistent(Link(s, dir, name, target, code).s)
  {
    if dir != 0 && target != 0 && |name| > 0 && dir in s.inodes && target in s.inodes {
      var s2 := s.(held := s.held + multiset{dir} + multiset{target});
      EngineLinkConsistent(s2, dir, name, target, code);
    }
  }

  /** Unlink never reaches the engine: the resolver reports a found name by its length, never
      by EOK, so every request that passes the argument checks ends in ENOENT and removes
      nothing. */
  lemma UnlinkNeverRemoves(s: State, dir: nat, name: string, code: EngineCode)
    requires Consistent(s)
    ensures Unlink(s, dir, name, code).ret == -EINVAL || Unlink(s, dir, name, code).ret == -ENOENT
    ensures SameContents(s, Unlink(s, dir, name, code).s)
  {
    if dir != 0 && |name| > 0 && dir in s.inodes {
      LookupNeverOk(s.(held := s.held + multiset{dir}), dir, name);
    }
  }

  /** Unlink leaves behind exactly the references the resolver leaked. */
  lemma UnlinkHeld(s: State, dir: nat, name: string, code: EngineCode)
    requires Consistent(s) && dir != 0 && |name| > 0 && dir in s.inodes
    ensures Unlink(s, dir, name, code).s.held == s.held + Lookup(s.(held := s.held + multiset{dir}), dir, name).leaked
  {
    var s1 := s.(held := s.held + multiset{dir});
    LookupNeverOk(s1, dir, name);
    var lk := Lookup(s1, dir, name);
    assert lk.s.held == s.held + lk.leaked + multiset{dir};
  }

  /** Past the directory checks, create always goes on to the type switch: the
      "already exists" test on the resolver's result never fires. */
  lemma CreateSkipsExistenceTest(s: State, dir: nat, name: string, oid: Oid, otype: int, mode: int, code: EngineCode)
    requires Consistent(s) && dir in s.inodes && IsDir(s.inodes[dir].mode)
    ensures var lk := Lookup(s.(held := s.held + multiset{dir}), dir, name);
      && SameContents(s, lk.s) && lk.s.held == s.held + multiset{dir} + lk.leaked
      && Create(s, dir, name, oid, otype, mode, code) == CreateInDir(lk.s, dir, name, oid, otype, mode, code)
  {
    LookupNeverOk(s.(held := s.held + multiset{dir}), dir, name);
  }

  /** A regular-file create in a live directory succeeds exactly when the engine does, even
      when the name is already an entry: only the engine's own result can report it. */
  lemma CreateFileReachesEngine(s: State, dir: nat, name: string, oid: Oid, mode: int, code: EngineCode)
    requires Consistent(s) && dir in s.inodes && IsDir(s.inodes[dir].mode)
    ensures Create(s, dir, name, oid, OT_FILE, mode, code).ret == code
    ensures code == 0 ==> Create(s, dir, name, oid, OT_FILE, mode, code).s.inodes[dir].entries[name] == s.highestIno + 1
  {
    CreateSkipsExistenceTest(s, dir, name, oid, OT_FILE, mode, code);
  }

  /** A directory create falls through into the default case: the engine's mkdir runs, and
      the request still fails with EINVAL. */
  lemma CreateDirFallsThrough(s: State, dir: nat, name: string, oid: Oid, mode: int, code: EngineCode)
    requires Consistent(s) && dir in s.inodes && IsDir(s.inodes[dir].mode)
    ensures Create(s, dir, name, oid, OT_DIR, mode, code).ret == -EINVAL
    ensures code == 0 ==>
      var r := Create(s, dir, name, oid, OT_DIR, mode, code);
      && r.s.inodes.Keys == s.inodes.Keys + {s.highestIno + 1}
      && IsDir(r.s.inodes[s.highestIno + 1].mode)
      && r.s.inodes[dir].entries == s.inodes[dir].entries[name := s.highestIno + 1]
  {
    CreateSkipsExistenceTest(s, dir, name, oid, OT_DIR, mode, code);
    var lk := Lookup(s.(held := s.held + multiset{dir}), dir, name);
    if code == 0 {
      MkdirInSameContents(s, lk.s, dir, name, oid, mode);
    }
  }

  /** The mkdir of the directory case, run on a state holding the same inodes as `s`. */
  lemma MkdirInSameContents(s: State, t: State, dir: nat, name: string, oid: Oid, mode: int)
    requires Consistent(t) && dir in t.inodes && SameContents(s, t)
    ensures var r := CreateInDir(t, dir, name, oid, OT_DIR, mode, 0);
      && r.s.inodes.Keys == s.inodes.Keys + {s.highestIno + 1}
      && IsDir(r.s.inodes[s.highestIno + 1].mode)
      && r.s.inodes[dir].entries == s.inodes[dir].entries[name := s.highestIno + 1]
  {
  }

  /** Create keeps the filesystem consistent, whatever the type and the engine's outcome. */
  lemma CreateKeepsConsistent(s: State, dir: nat, name: string, oid: Oid, otype: int, mode: int, code: EngineCode)
    requires Consistent(s)
    ensures Consistent(Create(s, dir, name, oid, otype, mode, code).s)
  {
    if dir in s.inodes && IsDir(s.inodes[dir].mode) {
      CreateSkipsExistenceTest(s, dir, name, oid, otype, mode, code);
      var lk := Lookup(s.(held := s.held + multiset{dir}), dir, name);
      if otype == OT_FILE {
        EngineNewConsistent(lk.s, dir, name, FILE_MODE, code);
      } else if otype == OT_DIR {
        EngineNewConsistent(lk.s, dir, name, DirMode(mode), code);
      }
    }
  }

  /** The readdir guard: a directory passes it, and so do block devices and sockets; a
      regular file is refused and keeps the reference the guard took. */
  lemma ReaddirGuard(s: State, dir: nat, offs: int, enumerate: DirContext -> DirContext)
    requires dir != 0 && dir in s.inodes
    ensures var m := s.inodes[dir].mode;
      IsDir(m) || Format(m) == S_IFBLK || Format(m) == S_IFSOCK ==>
        Readdir(s, dir, offs, enumerate).ret == enumerate(DirContext(offs, -1)).emit
    ensures IsReg(s.inodes[dir].mode) ==>
      Readdir(s, dir, offs, enumerate) == Out(-EINVAL, s.(held := s.held + multiset{dir}))
  {
    Bit14Formats(s.inodes[dir].mode);
  }
}

=== FILE: dirops.dfy ===
/** Directory mutators and the readdir wrapper: `jffs2_srv_link`, `jffs2_srv_unlink`,
    `jffs2_srv_create`, `jffs2_srv_destroy` and the guards of `jffs2_srv_readdir`. */
module DirOps {
  import opened Posix
  import opened Engine
  import opened PathLookup

  datatype Out = Out(ret: int, s: State)

  /** `jffs2_srv_link(dir, name, oid)` with the engine's link outcome `code`. */
  function Link(s: State, dir: nat, name: string, target: nat, code: EngineCode): (r: Out)
    ensures dir == 0 || target == 0 || |name| == 0 ==> r == Out(-EINVAL, s)
    ensures dir != 0 && target != 0 && |name| > 0 && (dir !in s.inodes || target !in s.inodes) ==>
      r == Out(-ENOENT, s)
    ensures dir != 0 && target != 0 && |name| > 0 && dir in s.inodes && target in s.inodes ==>
      r.ret == code && (code != 0 ==> r.s == s)
    ensures r.ret == 0 ==> r.s.inodes.Keys == s.inodes.Keys && r.s.inodes[dir].entries == s.inodes[dir].entries[name := target]
    ensures r.ret == 0 ==> r.s.inodes[dir] == s.inodes[dir].(entries := s.inodes[dir].entries[name := target])
    ensures r.ret == 0 ==> forall other :: other in s.inodes && other != dir ==> r.s.inodes[other] == s.inodes[other]
    ensures r.s.port == s.port && r.s.log == s.log && r.s.highestIno == s.highestIno
    ensures r.s.held == s.held && r.s.locked == s.locked && r.s.reserved == s.reserved
  {
    if dir == 0 || target == 0 then Out(-EINVAL, s)
    else if |name| == 0 then Out(-EINVAL, s)
    else
      match Acquire(s, dir)
      case None => Out(-ENOENT, s)
      case Some(s1) =>
        match Acquire(s1, target)
        case None => Out(-ENOENT, Release(s1, dir))
        case Some(s2) =>
          var s3 := EngineLink(s2, dir, name, target, code);
          Out(code, Release(Release(s3, dir), target))
  }

  /** `jffs2_srv_unlink(dir, name)` with the engine's unlink outcome `code`. The target is
      found with the path resolver, and the code goes on only when the resolver returns EOK. */
  function Unlink(s: State, dir: nat, name: string, code: EngineCode): (r: Out)
    requires Consistent(s)
    ensures dir == 0 || |name| == 0 ==> r == Out(-EINVAL, s)
    ensures dir != 0 && |name| > 0 && dir !in s.inodes ==> r == Out(-ENOENT, s)
    ensures r.s.locked == s.locked && r.s.reserved == s.reserved && r.s.port == s.port
  {
    if dir == 0 then Out(-EINVAL, s)
    else if |name| == 0 then Out(-EINVAL, s)
    else
      match Acquire(s, dir)
      case None => Out(-ENOENT, s)
      case Some(s1) =>
        var lk := Lookup(s1, dir, name);
        if lk.ret != EOK then Out(-ENOENT, Release(lk.s, dir))
        else UnlinkTarget(lk.s, dir, name, lk.res, code)
  }

  /** The part of unlink after a lookup that returned EOK: take the target, call the engine's
      unlink, and drop both references. */
  function UnlinkTarget(s: State, dir: nat, name: string, target: nat, code: EngineCode): (r: Out)
    requires dir in s.inodes && dir in s.held
    ensures target !in s.inodes ==> r == Out(-ENOENT, Release(s, dir))
    ensures target in s.inodes ==> r.ret == code
    ensures r.s.held + multiset{dir} == s.held
    ensures target in s.inodes && code == 0 ==>
      r.s.inodes.Keys == s.inodes.Keys && r.s.inodes[dir].entries == s.inodes[dir].entries - {name}
    ensures target in s.inodes && code == 0 ==> r.s.inodes[dir] == s.inodes[dir].(entries := s.inodes[dir].entries - {name})
    ensures target in s.inodes && code == 0 ==>
      forall other :: other in s.inodes && other != dir ==> r.s.inodes[other] == s.inodes[other]
    ensures r.s.log == s.log && r.s.highestIno == s.highestIno
    ensures code != 0 ==> SameContents(s, r.s)
    ensures r.s.locked == s.locked && r.s.reserved == s.reserved && r.s.port == s.port
  {
    match Acquire(s, target)
    case None => Out(-ENOENT, Release(s, dir))
    case Some(s2) =>
      var s3 := EngineUnlink(s2, dir, name, code);
      Out(code, Release(Release(s3, dir), target))
  }

  /** The mode a regular file is created with, whatever the request asked for:
      `S_IFREG | S_IRWXU | S_IRWXG | S_IRWXO`. */
  const FILE_MODE: nat := S_IFREG + S_IRWXU + S_IRWXG + S_IRWXO

  /** The mode the engine's mkdir is taken to store for a requested mode: the directory format
      bits with the request's permission bits. The adapter itself passes the whole mode on. */
  function DirMode(mode: int): (m: nat)
    ensures IsDir(m) && m % 0x1000 == mode % 0x1000
  {
    S_IFDIR + mode % 0x1000
  }

  /** Object identifier `{port, id}`. */
  datatype Oid = Oid(port: nat, id: nat)

  datatype CreateOut = CreateOut(ret: int, oid: Oid, s: State)

  /** `jffs2_srv_create(dir, name, oid, type, mode, port)` with the outcome `code` of the
      engine's create or mkdir; `oid` is the response's object id before the call. */
  function Create(s: State, dir: nat, name: string, oid: Oid, otype: int, mode: int, code: EngineCode): (r: CreateOut)
    requires Consistent(s)
    ensures dir !in s.inodes ==> r == CreateOut(-ENOENT, oid, s)
    ensures dir in s.inodes && !IsDir(s.inodes[dir].mode) ==> r == CreateOut(-ENOTDIR, oid, s)
    ensures r.ret != 0 ==> r.oid.id == oid.id
    // only a regular file the engine created succeeds; it always gets the fixed permissive
    // mode, and the response names it
    ensures r.ret == 0 ==>
      && dir in s.inodes && IsDir(s.inodes[dir].mode) && otype == OT_FILE && code == 0
      && r.oid == Oid(s.port, s.highestIno + 1)
      && r.s.inodes.Keys == s.inodes.Keys + {r.oid.id}
      && r.s.inodes[r.oid.id].mode == FILE_MODE
      && r.s.inodes[dir].entries == s.inodes[dir].entries[name := r.oid.id]
    ensures r.ret == 0 ==>
      && r.s.inodes[r.oid.id] == NewInode(FILE_MODE, dir)
      && r.s.inodes[dir] == s.inodes[dir].(entries := s.inodes[dir].entries[name := r.oid.id])
      && r.s.highestIno == r.oid.id
      && (forall other :: other in s.inodes && other != dir ==> r.s.inodes[other] == s.inodes[other])
    ensures r.s.locked == s.locked && r.s.reserved == s.reserved && r.s.port == s.port
  {
    match Acquire(s, dir)
    case None => CreateOut(-ENOENT, oid, s)
    case Some(s1) =>
      assert Release(s1, dir) == s by { assert s1.held - multiset{dir} == s.held; }
      if !IsDir(s1.inodes[dir].mode) then CreateOut(-ENOTDIR, oid, Release(s1, dir))
      else
        var lk := Lookup(s1, dir, name);
        if lk.ret == EOK then CreateOut(-EEXIST, oid, Release(lk.s, dir))
        else
          assert lk.s.inodes == s.inodes && lk.s.highestIno == s.highestIno && lk.s.port == s.port;
          CreateInDir(lk.s, dir, name, oid, otype, mode, code)
  }

  /** Create past its existence test: the `switch (type)`, the final `oid->id` assignment
      and the release of the directory. A file gets the engine's result; the directory case
      has no `break`, so mkdir runs and the default then sets EINVAL. */
  function CreateInDir(s: State, dir: nat, name: string, oid: Oid, otype: int, mode: int, code: EngineCode): (r: CreateOut)
    requires Consistent(s) && dir in s.inodes
    ensures r.ret == (if otype == OT_FILE then code else -EINVAL)
    ensures r.ret != 0 ==> r.oid.id == oid.id
    ensures r.ret == 0 ==>
      && r.oid == Oid(s.port, s.highestIno + 1)
      && r.s.inodes.Keys == s.inodes.Keys + {r.oid.id}
      && r.s.inodes[r.oid.id].mode == FILE_MODE
      && r.s.inodes[dir].entries == s.inodes[dir].entries[name := r.oid.id]
    ensures r.ret == 0 ==>
      && r.s.inodes[r.oid.id] == NewInode(FILE_MODE, dir)
      && r.s.inodes[dir] == s.inodes[dir].(entries := s.inodes[dir].entries[name := r.oid.id])
      && r.s.highestIno == r.oid.id
      && (forall other :: other in s.inodes && other != dir ==> r.s.inodes[other] == s.inodes[other])
    ensures otype != OT_FILE && otype != OT_DIR ==> r == CreateOut(-EINVAL, oid, Release(s, dir))
    ensures otype == OT_FILE ==> r.s == Release(EngineNew(s, dir, name, FILE_MODE, code), dir)
    ensures otype == OT_DIR ==> r.s == Release(EngineNew(s, dir, name, DirMode(mode), code), dir)
    ensures (otype == OT_FILE || otype == OT_DIR) && code != 0 ==> SameContents(s, r.s)
    ensures (otype == OT_FILE || otype == OT_DIR) && code == 0 ==>
      && r.s.inodes.Keys == s.inodes.Keys + {s.highestIno + 1}
      && r.s.inodes[s.highestIno + 1].mode == (if otype == OT_FILE then FILE_MODE else DirMode(mode))
      && r.s.inodes[dir].entries == s.inodes[dir].entries[name := s.highestIno + 1]
    ensures r.s.held == s.held - multiset{dir}
    ensures r.s.locked == s.locked && r.s.reserved == s.reserved && r.s.port == s.port
  {
    if otype == OT_FILE then
      var s1 := Release(EngineNew(s, dir, name, FILE_MODE, code), dir);
      if code == 0 then CreateOut(0, Oid(s.port, s.highestIno + 1), s1)
      else CreateOut(code, oid.(port := s.port), s1)
    else if otype == OT_DIR then
      CreateOut(-EINVAL, oid.(port := s.port), Release(EngineNew(s, dir, name, DirMode(mode), code), dir))
    else
      CreateOut(-EINVAL, oid, Release(s, dir))
  }

  /** `jffs2_srv_destroy(oid)`: reclamation is left to unlink; the call always succeeds and
      touches nothing. */
  function Destroy(s: State, oid: Oid): (r: Out)
    ensures r.ret == EOK && r.s == s
  {
    Out(EOK, s)
  }

  /** The `struct dir_context` readdir hands to the engine: the start position and the emitted
      count, which starts at -1 to mean "nothing emitted". */
  datatype DirContext = DirContext(pos: int, emit: int)

  /** `jffs2_srv_readdir(dir, offs, dent, size)` up to and around the engine's `jffs2_readdir`,
      whose effect on the context is the parameter `enumerate`. */
  function Readdir(s: State, dir: nat, offs: int, enumerate: DirContext -> DirContext): (r: Out)
    ensures SameContents(s, r.s) && r.s.locked == s.locked && r.s.reserved == s.reserved
    ensures dir == 0 || dir !in s.inodes ==> r == Out(-EINVAL, s)
    // the guard is bit 14 of the mode, and its failure exit keeps the reference
    ensures dir != 0 && dir in s.inodes && !Bit14(s.inodes[dir].mode) ==>
      r.ret == -EINVAL && r.s.held == s.held + multiset{dir}
    ensures dir != 0 && dir in s.inodes && Bit14(s.inodes[dir].mode) ==>
      r.ret == enumerate(DirContext(offs, -1)).emit && r.s.held == s.held
  {
    if dir == 0 then Out(-EINVAL, s)
    else
      match Acquire(s, dir)
      case None => Out(-EINVAL, s)
      case Some(s1) =>
        if !Bit14(s1.inodes[dir].mode) then Out(-EINVAL, s1)
        else
          var ctx := enumerate(DirContext(offs, -1));
          Out(ctx.emit, Release(s1, dir))
  }
}

=== FILE: engine.dfy ===
/** The JFFS2 engine as the adapter sees it: an inode cache keyed by inode number, the
    node log, and the primitives the adapter calls. The engine's own algorithms are not
    modelled; each primitive either has a fixed abstract effect or takes its outcome as a
    parameter. Reference counts (`held`), per-inode semaphores (`locked`) and the space
    reservation (`reserved`) are kept as observable counters so that pairing can be stated. */
module Engine {
  import opened Posix

  datatype Option<T> = None | Some(value: T)

  datatype Compr = ComprNone | ComprZero

  /** A raw inode node in the log. The CRC fields are recorded as set or not, never computed. */
  datatype Node = Node(
    ino: nat,
    version: nat,
    mode: nat,
    uid: int,
    gid: int,
    isize: u32,
    offset: u32,
    dsize: u32,
    csize: u32,
    compr: Compr,
    crcSet: bool,
    obsolete: bool)

  /** In-core inode: the VFS fields the adapter reads or writes, the JFFS2 inode info
      (`highest_version`, `metadata`, the cached parent `pino_nlink`) and the directory
      entries the engine's lookup consults. */
  datatype Inode = Inode(
    mode: nat,
    uid: int,
    gid: int,
    size: u32,
    blocks: nat,
    rdev: int,
    parent: nat,
    highestVersion: nat,
    metadata: Option<nat>,
    entries: map<string, nat>)

  /** The process-wide server context (`jffs2_common`): the listening port and the engine. */
  datatype State = State(
    port: nat,
    inodes: map<nat, Inode>,
    highestIno: nat,
    log: seq<Node>,
    held: multiset<nat>,
    locked: set<nat>,
    reserved: bool)

  /** What a consistent filesystem guarantees the adapter: id 0 names no inode, every cached
      parent and every directory entry names a live inode, ids are bounded by the highest
      allocated one, and metadata pointers point into the log. */
  predicate IdsBounded(inodes: map<nat, Inode>, highestIno: nat) {
    0 !in inodes && forall id :: id in inodes ==> id <= highestIno
  }

  predicate ParentsLive(inodes: map<nat, Inode>) {
    forall id {:trigger inodes[id].parent} :: id in inodes ==> inodes[id].parent in inodes
  }

  predicate EntriesLive(inodes: map<nat, Inode>) {
    forall id, n {:trigger inodes[id].entries[n]} :: id in inodes && n in inodes[id].entries ==> inodes[id].entries[n] in inodes
  }

  predicate MetadataInLog(inodes: map<nat, Inode>, logLen: nat) {
    forall id {:trigger inodes[id].metadata} :: id in inodes && inodes[id].metadata.Some? ==> inodes[id].metadata.value < logLen
  }

  predicate ConsistentTree(inodes: map<nat, Inode>, highestIno: nat, logLen: nat) {
    IdsBounded(inodes, highestIno) && ParentsLive(inodes) && EntriesLive(inodes) && MetadataInLog(inodes, logLen)
  }

  predicate Consistent(s: State) {
    ConsistentTree(s.inodes, s.highestIno, |s.log|)
  }

  /** Same engine contents; only the reference, lock and reservation counters may differ. */
  predicate SameContents(s: State, t: State) {
    s.port == t.port && s.inodes == t.inodes && s.highestIno == t.highestIno && s.log == t.log
  }

  /** `jffs2_iget`: takes a reference when the id names a live inode, fails otherwise. */
  function Acquire(s: State, id: nat): (r: Option<State>)
    ensures r.Some? <==> id in s.inodes
    ensures r.Some? ==> SameContents(s, r.value) && r.value.locked == s.locked
    ensures r.Some? ==> r.value.held == s.held + multiset{id} && r.value.reserved == s.reserved
  {
    if id in s.inodes then Some(s.(held := s.held + multiset{id})) else None
  }

  /** `iput`: drops one reference. */
  function Release(s: State, id: nat): (r: State)
    ensures SameContents(s, r) && r.locked == s.locked && r.reserved == s.reserved
    ensures id in s.held ==> r.held + multiset{id} == s.held
  {
    s.(held := s.held - multiset{id})
  }

  /** `mutex_lock(&f->sem)`. */
  function Lock(s: State, id: nat): (r: State)
    ensures SameContents(s, r) && r.held == s.held && r.reserved == s.reserved
    ensures r.locked == s.locked + {id}
  {
    s.(locked := s.locked + {id})
  }

  /** `mutex_unlock(&f->sem)`. */
  function Unlock(s: State, id: nat): (r: State)
    ensures SameContents(s, r) && r.held == s.held && r.reserved == s.reserved
    ensures r.locked == s.locked - {id}
  {
    s.(locked := s.locked - {id})
  }

  /** Replaces the record of a live inode, leaving everything else as it was. */
  function SetInode(s: State, id: nat, ino: Inode): (r: State)
    requires id in s.inodes
    ensures r.inodes.Keys == s.inodes.Keys && r.inodes[id] == ino
    ensures forall other :: other in s.inodes && other != id ==> r.inodes[other] == s.inodes[other]
    ensures r.port == s.port && r.log == s.log && r.highestIno == s.highestIno
    ensures r.held == s.held && r.locked == s.locked && r.reserved == s.reserved
  {
    s.(inodes := s.inodes[id := ino])
  }

  /** A fresh inode of the given mode, created empty under `parent`. */
  function NewInode(mode: nat, parent: nat): Inode {
    Inode(mode, 0, 0, 0, 0, 0, parent, 0, None, map[])
  }

  /** The engine's `create`/`mkdir`: on success (`code == 0`) allocates inode number
      `highestIno + 1` with the given mode and enters it under `name` in `dir`. */
  function EngineNew(s: State, dir: nat, name: string, mode: nat, code: EngineCode): (r: State)
    requires Consistent(s) && dir in s.inodes
    ensures code != 0 ==> r == s
    ensures code == 0 ==> r.highestIno == s.highestIno + 1
    ensures code == 0 ==> r.inodes.Keys == s.inodes.Keys + {s.highestIno + 1}
    ensures code == 0 ==> r.inodes[s.highestIno + 1].mode == mode && r.inodes[s.highestIno + 1].parent == dir
    ensures code == 0 ==> dir in r.inodes && r.inodes[dir].entries == s.inodes[dir].entries[name := s.highestIno + 1]
    ensures code == 0 ==> r.inodes[dir] == s.inodes[dir].(entries := s.inodes[dir].entries[name := s.highestIno + 1])
    ensures code == 0 ==> r.inodes[s.highestIno + 1] == NewInode(mode, dir)
    ensures forall other :: other in s.inodes && other != dir ==> other in r.inodes && r.inodes[other] == s.inodes[other]
    ensures r.held == s.held && r.locked == s.locked && r.reserved == s.reserved && r.log == s.log && r.port == s.port
  {
    if code != 0 then s
    else
      var id := s.highestIno + 1;
      var d := s.inodes[dir];
      var withNew := s.inodes[id := NewInode(mode, dir)];
      s.(inodes := withNew[dir := d.(entries := d.entries[name := id])], highestIno := id)
  }

  /** Creating an inode keeps the filesystem consistent: the new number is fresh, its parent
      is the live directory, and the only new entry names it. */
  lemma EngineNewConsistent(s: State, dir: nat, name: string, mode: nat, code: EngineCode)
    requires Consistent(s) && dir in s.inodes
    ensures Consistent(EngineNew(s, dir, name, mode, code))
  {
    if code == 0 {
      var id := s.highestIno + 1;
      var d := s.inodes[dir];
      var withNew := s.inodes[id := NewInode(mode, dir)];
      AddInodeConsistent(s.inodes, s.highestIno, |s.log|, id, NewInode(mode, dir));
      var d' := d.(entries := d.entries[name := id]);
      assert withNew[dir] == d;
      ReplaceEntriesLive(withNew, dir, d');
      ReplaceParentsLive(withNew, dir, d');
      ReplaceMetadataInLog(withNew, dir, d', |s.log|);
      assert EngineNew(s, dir, name, mode, code).inodes == withNew[dir := d'];
    }
  }

  /** Adding a fresh, empty inode under a live parent keeps the filesystem consistent. */
  lemma AddInodeConsistent(inodes: map<nat, Inode>, hi: nat, logLen: nat, id: nat, ino: Inode)
    requires ConsistentTree(inodes, hi, logLen)
    requires id == hi + 1 && ino.parent in inodes && ino.entries == map[] && ino.metadata == None
    ensures ConsistentTree(inodes[id := ino], id, logLen)
  {
    var m := inodes[id := ino];
    assert id !in inodes;
    AddEntriesLive(inodes, id, ino);
    AddParentsLive(inodes, id, ino);
    AddMetadataInLog(inodes, id, ino, logLen);
  }

  lemma AddEntriesLive(inodes: map<nat, Inode>, id: nat, ino: Inode)
    requires EntriesLive(inodes) && id !in inodes && ino.entries == map[]
    ensures EntriesLive(inodes[id := ino])
  {
  }

  lemma AddParentsLive(inodes: map<nat, Inode>, id: nat, ino: Inode)
    requires ParentsLive(inodes) && id !in inodes && ino.parent in inodes
    ensures ParentsLive(inodes[id := ino])
  {
  }

  lemma AddMetadataInLog(inodes: map<nat, Inode>, id: nat, ino: Inode, logLen: nat)
    requires MetadataInLog(inodes, logLen) && ino.metadata == None
    ensures MetadataInLog(inodes[id := ino], logLen)
  {
  }

  /** The engine's `link`: on success enters `target` under `name` in `dir`. */
  function EngineLink(s: State, dir: nat, name: string, target: nat, code: EngineCode): (r: State)
    requires dir in s.inodes
    ensures code != 0 ==> r == s
    ensures code == 0 ==> r.inodes.Keys == s.inodes.Keys && r.inodes[dir].entries == s.inodes[dir].entries[name := target]
    ensures code == 0 ==> r.inodes[dir] == s.inodes[dir].(entries := s.inodes[dir].entries[name := target])
    ensures forall other :: other in s.inodes && other != dir ==> other in r.inodes && r.inodes[other] == s.inodes[other]
    ensures r.held == s.held && r.locked == s.locked && r.reserved == s.reserved && r.log == s.log
    ensures r.port == s.port && r.highestIno == s.highestIno
  {
    if code != 0 then s
    else
      var d := s.inodes[dir];
      SetInode(s, dir, d.(entries := d.entries[name := target]))
  }

  /** Linking a live inode keeps the filesystem consistent. */
  lemma EngineLinkConsistent(s: State, dir: nat, name: string, target: nat, code: EngineCode)
    requires Consistent(s) && dir in s.inodes && target in s.inodes
    ensures Consistent(EngineLink(s, dir, name, target, code))
  {
    if code == 0 {
      var d := s.inodes[dir];
      ReplaceConsistent(s, dir, d.(entries := d.entries[name := target]));
    }
  }

  /** Replacing a live inode's record by one with the same parent and metadata, whose
      entries all name live inodes, keeps the filesystem consistent. */
  lemma ReplaceConsistent(s: State, dir: nat, d: Inode)
    requires Consistent(s) && dir in s.inodes
    requires d.parent == s.inodes[dir].parent && d.metadata == s.inodes[dir].metadata
    requires forall n :: n in d.entries ==> d.entries[n] in s.inodes
    ensures Consistent(SetInode(s, dir, d))
  {
    var m := s.inodes[dir := d];
    ReplaceEntriesLive(s.inodes, dir, d);
    ReplaceParentsLive(s.inodes, dir, d);
    ReplaceMetadataInLog(s.inodes, dir, d, |s.log|);
  }

  lemma ReplaceEntriesLive(inodes: map<nat, Inode>, dir: nat, d: Inode)
    requires EntriesLive(inodes) && dir in inodes
    requires forall n :: n in d.entries ==> d.entries[n] in inodes
    ensures EntriesLive(inodes[dir := d])
  {
  }

  lemma ReplaceParentsLive(inodes: map<nat, Inode>, dir: nat, d: Inode)
    requires ParentsLive(inodes) && dir in inodes && d.parent == inodes[dir].parent
    ensures ParentsLive(inodes[dir := d])
  {
  }

  lemma ReplaceMetadataInLog(inodes: map<nat, Inode>, dir: nat, d: Inode, logLen: nat)
    requires MetadataInLog(inodes, logLen) && dir in inodes && d.metadata == inodes[dir].metadata
    ensures MetadataInLog(inodes[dir := d], logLen)
  {
  }

  /** A change confined to one inode that keeps its parent and entries, and either keeps or
      drops its metadata pointer, keeps the filesystem consistent while the log only grows. */
  lemma UpdateConsistent(s: State, t: State, id: nat)
    requires Consistent(s) && id in s.inodes
    requires t.inodes.Keys == s.inodes.Keys && t.highestIno == s.highestIno && |t.log| >= |s.log|
    requires forall other :: other in s.inodes && other != id ==> t.inodes[other] == s.inodes[other]
    requires t.inodes[id].parent == s.inodes[id].parent && t.inodes[id].entries == s.inodes[id].entries
    requires t.inodes[id].metadata == s.inodes[id].metadata || t.inodes[id].metadata.None?
    ensures Consistent(t)
  {
    assert ParentsLive(t.inodes) by {
      forall x | x in t.inodes ensures t.inodes[x].parent in t.inodes {
        assert s.inodes[x].parent in s.inodes;
      }
    }
    assert EntriesLive(t.inodes) by {
      forall x, n | x in t.inodes && n in t.inodes[x].entries ensures t.inodes[x].entries[n] in t.inodes {
        assert s.inodes[x].entries[n] in s.inodes;
      }
    }
    assert MetadataInLog(t.inodes, |t.log|) by {
      forall x | x in t.inodes && t.inodes[x].metadata.Some? ensures t.inodes[x].metadata.value < |t.log| {
        assert s.inodes[x].metadata.value < |s.log|;
      }
    }
  }

  /** The engine's `unlink`: on success removes `name` from `dir`. */
  function EngineUnlink(s: State, dir: nat, name: string, code: EngineCode): (r: State)
    requires dir in s.inodes
    ensures code != 0 ==> r == s
    ensures code == 0 ==> r.inodes.Keys == s.inodes.Keys && r.inodes[dir].entries == s.inodes[dir].entries - {name}
    ensures code == 0 ==> r.inodes[dir] == s.inodes[dir].(entries := s.inodes[dir].entries - {name})
    ensures forall other :: other in s.inodes && other != dir ==> other in r.inodes && r.inodes[other] == s.inodes[other]
    ensures r.held == s.held && r.locked == s.locked && r.reserved == s.reserved && r.log == s.log
    ensures r.port == s.port && r.highestIno == s.highestIno
  {
    if code != 0 then s
    else
      var d := s.inodes[dir];
      SetInode(s, dir, d.(entries := d.entries - {name}))
  }

  /** Removing an entry keeps the filesystem consistent. */
  lemma EngineUnlinkConsistent(s: State, dir: nat, name: string, code: EngineCode)
    requires Consistent(s) && dir in s.inodes
    ensures Consistent(EngineUnlink(s, dir, name, code))
  {
    if code == 0 {
      var d := s.inodes[dir];
      ReplaceConsistent(s, dir, d.(entries := d.entries - {name}));
    }
  }

  /** `jffs2_reserve_space` when it succeeds: space for one node is set aside. */
  function Reserve(s: State): (r: State)
    ensures r.reserved
    ensures SameContents(s, r) && r.held == s.held && r.locked == s.locked
  {
    s.(reserved := true)
  }

  /** `jffs2_complete_reservation`: the reservation is given back. */
  function CompleteReservation(s: State): (r: State)
    ensures !r.reserved
    ensures SameContents(s, r) && r.held == s.held && r.locked == s.locked
  {
    s.(reserved := false)
  }

  /** `jffs2_mark_node_obsolete` on the node at log position `k`. */
  function MarkObsolete(log: seq<Node>, k: nat): (r: seq<Node>)
    ensures |r| == |log|
    ensures k < |log| ==> r[k] == log[k].(obsolete := true)
    ensures forall j :: 0 <= j < |log| && j != k ==> r[j] == log[j]
  {
    if k < |log| then log[k := log[k].(obsolete := true)] else log
  }
}

=== FILE: lookup.dfy ===
/** The path resolver `jffs2_srv_lookup`: a left-to-right walk over a slash-separated path,
    with `.` and `..` handled by the adapter and every other component handed to the
    engine's directory lookup. The path is the request string up to its NUL terminator. */
module PathLookup {
  import opened Posix
  import opened Engine

  /** Position of the first character at or after `i` that is not `/`. */
  function SkipSlashes(p: string, i: nat): (j: nat)
    requires i <= |p|
    ensures i <= j <= |p|
    ensures forall k :: i <= k < j ==> p[k] == '/'
    ensures j < |p| ==> p[j] != '/'
    decreases |p| - i
  {
    if i < |p| && p[i] == '/' then SkipSlashes(p, i + 1) else i
  }

  /** Position of the first `/` at or after `i`, or the end of the path: the extent of the
      component that `strdup` followed by `strchr(..., '/')` cuts out. */
  function ComponentEnd(p: string, i: nat): (j: nat)
    requires i <= |p|
    ensures i <= j <= |p|
    ensures forall k :: i <= k < j ==> p[k] != '/'
    ensures j < |p| ==> p[j] == '/'
    decreases |p| - i
  {
    if i < |p| && p[i] != '/' then ComponentEnd(p, i + 1) else i
  }

  /** Outcome of the walk: the consumed length `len`, the result id `res`, the inode `cur`
      still held at the end, the directories whose reference a `..` step abandoned (`ups`),
      and the engine state. */
  datatype Walked = Walked(len: nat, res: nat, cur: nat, ups: seq<nat>, s: State)

  /** What one iteration of the loop does at position `i < |p|`, after skipping slashes. A
      component other than `.` and `..` goes to the engine's directory lookup
      (`i_op->lookup`), which finds it exactly when it is an entry of the current directory. */
  datatype Step =
    | Dot(next: nat)                   // component `.`
    | Up(next: nat, up: nat)           // component `..`, with the cached parent
    | Miss(at: nat)                    // the engine has no such entry: the loop breaks
    | Descend(next: nat, found: nat)   // the engine found the entry

  /** A component that is neither `.` nor `..` and that the directory `cur` has no entry for. */
  predicate Unmatched(s: State, cur: nat, c: string)
    requires cur in s.inodes
  {
    c != "." && c != ".." && c !in s.inodes[cur].entries
  }

  /** The walk stops at position `j`: a component starts there that `cur` does not match. */
  predicate StopsAt(s: State, p: string, j: nat, cur: nat)
    requires j <= |p| && cur in s.inodes
  {
    j < |p| && p[j] != '/' && Unmatched(s, cur, p[j..ComponentEnd(p, j)])
  }

  function NextStep(s: State, p: string, i: nat, cur: nat): (st: Step)
    requires Consistent(s) && i < |p| && cur in s.inodes
    ensures st.Dot? ==> i < st.next <= |p|
    ensures st.Up? ==> i < st.next <= |p| && st.up == s.inodes[cur].parent && st.up in s.inodes
    ensures st.Miss? ==> i <= st.at <= |p|
    ensures st.Descend? ==> i < st.next <= |p| && st.found in s.inodes
    // each kind of step is taken exactly for its kind of component
    ensures var j := SkipSlashes(p, i); var c := p[j..ComponentEnd(p, j)];
      && (st.Dot? <==> c == ".") && (st.Dot? ==> st.next == j + 1)
      && (st.Up? <==> c == "..") && (st.Up? ==> st.next == j + 2)
      && (st.Descend? ==> c in s.inodes[cur].entries && st.found == s.inodes[cur].entries[c] && st.next == ComponentEnd(p, j))
      && (st.Miss? <==> Unmatched(s, cur, c)) && (st.Miss? ==> st.at == j)
  {
    var j := SkipSlashes(p, i);
    var k := ComponentEnd(p, j);
    var c := p[j..k];
    if c == "." then Dot(j + 1)
    else if c == ".." then Up(j + 2, s.inodes[cur].parent)
    else if c in s.inodes[cur].entries then Descend(k, s.inodes[cur].entries[c])
    else Miss(j)
  }

  /** The `while (name[len] != '\0')` loop of the resolver, from position `i` with current
      directory `cur` and result id `res`. */
  function Walk(s: State, p: string, i: nat, cur: nat, res: nat): (w: Walked)
    requires Consistent(s) && i <= |p| && cur in s.inodes
    ensures i <= w.len <= |p|
    ensures SameContents(s, w.s) && w.s.locked == s.locked && w.s.reserved == s.reserved
    ensures w.cur in s.inodes
    ensures w.res == res || w.res in s.inodes
    // the walk consumes the whole path unless it stops at an unmatched component
    ensures w.len == |p| || StopsAt(s, p, w.len, w.cur)
    // the result is the inode the walk ended at, unless no step ever set it
    ensures w.res == w.cur || (w.res == res && w.cur == cur && w.ups == [])
    decreases |p| - i
  {
    if i == |p| then Walked(i, res, cur, [], s)
    else
      match NextStep(s, p, i, cur)
      case Dot(next) => Walk(s, p, next, cur, cur)
      case Up(next, up) =>
        // `..` re-acquires the cached parent without releasing the current directory.
        var w := Walk(s.(held := s.held + multiset{up}), p, next, up, up);
        w.(ups := [cur] + w.ups)
      case Miss(at) => Walked(at, res, cur, [], s)
      case Descend(next, found) =>
        // The engine's lookup takes a reference on the entry; the loop then drops the
        // current directory's.
        Walk(Release(s.(held := s.held + multiset{found}), cur), p, next, found, found)
  }

  /** Reference accounting of the walk: on every exit the references held are the ones held
      on entry, with the current directory's replaced by the final one's, plus one for every
      directory a `..` step left behind. */
  lemma {:induction false} WalkHeld(s: State, p: string, i: nat, cur: nat, res: nat)
    requires Consistent(s) && i <= |p| && cur in s.inodes && cur in s.held
    ensures var w := Walk(s, p, i, cur, res);
      && w.s.held + multiset{cur} == s.held + multiset{w.cur} + multiset(w.ups)
      && w.cur in w.s.held
      && (forall x :: x in w.ups ==> x in s.inodes)
    decreases |p| - i
  {
    if i < |p| {
      match NextStep(s, p, i, cur)
      case Dot(next) =>
        WalkHeld(s, p, next, cur, cur);
      case Up(next, up) =>
        var s1 := s.(held := s.held + multiset{up});
        WalkHeld(s1, p, next, up, up);
        var w1 := Walk(s1, p, next, up, up);
        UpStepCount(s.held, w1.s.held, cur, up, w1.cur, w1.ups);
      case Miss(at) =>
      case Descend(next, found) =>
        var s2 := Release(s.(held := s.held + multiset{found}), cur);
        assert found in s2.held + multiset{cur};
        WalkHeld(s2, p, next, found, found);
        var w2 := Walk(s2, p, next, found, found);
        DescendStepCount(s.held, s2.held, w2.s.held, cur, found, w2.cur, multiset(w2.ups));
    }
  }

  /** Reference accounting of a `..` step: the parent taken is matched by the step's own
      walk, and the directory left behind joins the leaked ones. */
  lemma UpStepCount(h: multiset<nat>, h': multiset<nat>, cur: nat, up: nat, last: nat, ups: seq<nat>)
    requires h' + multiset{up} == (h + multiset{up}) + multiset{last} + multiset(ups)
    ensures h' + multiset{cur} == h + multiset{last} + multiset([cur] + ups)
  {
    assert multiset([cur] + ups) == multiset{cur} + multiset(ups);
    forall y
      ensures h'[y] == (h + multiset{last} + multiset(ups))[y]
    {
      assert (h' + multiset{up})[y] == h'[y] + multiset{up}[y];
    }
    assert h' == h + multiset{last} + multiset(ups);
  }

  /** Reference accounting of a descent: the found inode's reference replaces the current
      directory's. */
  lemma DescendStepCount(h: multiset<nat>, h1: multiset<nat>, h': multiset<nat>, cur: nat, found: nat, last: nat, ups: multiset<nat>)
    requires cur in h
    requires h1 == (h + multiset{found}) - multiset{cur}
    requires h' + multiset{found} == h1 + multiset{last} + ups
    ensures h' + multiset{cur} == h + multiset{last} + ups
  {
    forall y
      ensures (h' + multiset{cur})[y] == (h + multiset{last} + ups)[y]
    {
      assert (h' + multiset{found})[y] == (h1 + multiset{last} + ups)[y];
    }
  }

  /** Releasing the final directory leaves exactly the leaked references. */
  lemma FinalReleaseCount(h: multiset<nat>, h': multiset<nat>, start: nat, last: nat, ups: multiset<nat>)
    requires h' + multiset{start} == (h + multiset{start}) + multiset{last} + ups
    ensures h' - multiset{last} == h + ups
  {
    forall y
      ensures h'[y] == (h + multiset{last} + ups)[y]
    {
      assert (h' + multiset{start})[y] == h'[y] + multiset{start}[y];
    }
    assert h' == h + multiset{last} + ups;
  }

  /** Result of the resolver: the return code, `res->id`, the references left behind by `..`
      steps, and the engine state. */
  datatype LookupOut = LookupOut(ret: int, res: nat, leaked: multiset<nat>, s: State)

  /** The directory a request names: id 0 stands for the root, id 1. */
  function StartDir(dir: nat): (d: nat)
    ensures d != 0
    ensures dir != 0 ==> d == dir
  {
    if dir == 0 then 1 else dir
  }

  /** `jffs2_srv_lookup(dir, name, res)`. */
  function Lookup(s: State, dir: nat, path: string): (r: LookupOut)
    requires Consistent(s)
    ensures SameContents(s, r.s) && r.s.locked == s.locked && r.s.reserved == s.reserved
    ensures r.s.held == s.held + r.leaked
    ensures r.ret == -EINVAL <==> StartDir(dir) !in s.inodes
    ensures r.ret == -ENOTDIR <==> StartDir(dir) in s.inodes && !IsDir(s.inodes[StartDir(dir)].mode)
    ensures r.ret < 0 ==> r.res == 0
    ensures r.ret < 0 && r.ret != -ENOENT ==> r.leaked == multiset{}
    ensures r.ret >= 0 ==> r.ret <= |path| && r.res in s.inodes
    // a length is the whole path, or a position where a component starts that the inode
    // reached does not match
    ensures r.ret >= 0 ==> r.ret == |path| || StopsAt(s, path, r.ret, r.res)
    ensures r.ret == -EINVAL || r.ret == -ENOTDIR || r.ret == -ENOENT || r.ret >= 0
    ensures forall id :: id in r.leaked ==> id in s.inodes
  {
    var start := StartDir(dir);
    match Acquire(s, start)
    case None => LookupOut(-EINVAL, 0, multiset{}, s)
    case Some(s1) =>
      if !IsDir(s1.inodes[start].mode) then
        LookupOut(-ENOTDIR, 0, multiset{}, Release(s1, start))
      else
        var w := Walk(s1, path, 0, start, 0);
        WalkHeld(s1, path, 0, start, 0);
        var s2 := Release(w.s, w.cur);
        FinalReleaseCount(s.held, w.s.held, start, w.cur, multiset(w.ups));
        if w.res == 0 then LookupOut(-ENOENT, 0, multiset(w.ups), s2)
        else LookupOut(w.len, w.res, multiset(w.ups), s2)
  }
}

=== FILE: lookup_facts.dfy ===
/** Properties of the path resolver: what each kind of component contributes, where the walk
    stops, why a successful result is never EOK, and which references it leaves behind. */
module LookupFacts {
  import opened Posix
  import opened Engine
  import opened PathLookup

  /** Every step that sets the result id consumes at least one character, so a walk that
      changed the result id has moved past its starting position. */
  lemma {:induction false} WalkProgress(s: State, p: string, i: nat, cur: nat, res: nat)
    requires Consistent(s) && i <= |p| && cur in s.inodes
    ensures var w := Walk(s, p, i, cur, res); w.res != res ==> w.len > i
  {
    if i < |p| {
      match NextStep(s, p, i, cur)
      case Dot(next) =>
      case Up(next, up) =>
      case Miss(at) =>
      case Descend(next, found) =>
    }
  }

  /** The resolver never returns EOK: it returns a negated errno, or the consumed length,
      which is positive whenever a component resolved. */
  lemma LookupNeverOk(s: State, dir: nat, path: string)
    requires Consistent(s)
    ensures Lookup(s, dir, path).ret != EOK
    ensures Lookup(s, dir, path).ret >= 0 ==> Lookup(s, dir, path).ret >= 1 && Lookup(s, dir, path).res != 0
  {
    var start := StartDir(dir);
    if start in s.inodes && IsDir(s.inodes[start].mode) {
      var s1 := s.(held := s.held + multiset{start});
      WalkProgress(s1, path, 0, start, 0);
    }
  }

  /** A component starts at `j`: at the beginning of the path or just after a slash. */
  predicate ComponentStart(p: string, j: nat) {
    j == 0 || (0 < j <= |p| && p[j - 1] == '/')
  }

  /** No component of the path is `..`; a name such as `a..b` is allowed. */
  predicate NoDotDotComponent(p: string) {
    forall j: nat {:trigger ComponentEnd(p, j)} :: j <= |p| && ComponentStart(p, j) ==> p[j..ComponentEnd(p, j)] != ".."
  }

  /** The path contains no two consecutive dots anywhere. */
  predicate NoDotDot(p: string) {
    forall k :: 0 <= k < |p| - 1 ==> !(p[k] == '.' && p[k + 1] == '.')
  }

  /** A path without two consecutive dots has no `..` component. */
  lemma NoDotDotHasNoDotDotComponent(p: string)
    requires NoDotDot(p)
    ensures NoDotDotComponent(p)
  {
    forall j: nat | j <= |p| && ComponentStart(p, j) ensures p[j..ComponentEnd(p, j)] != ".." {
      if j + 1 < |p| {
        assert !(p[j] == '.' && p[j + 1] == '.');
      }
    }
  }

  /** The positions the walk visits: the start, the end, and slashes. */
  predicate AtBoundary(p: string, i: nat) {
    i == 0 || i == |p| || (i < |p| && p[i] == '/')
  }

  /** From a boundary, the slash skip lands where a component starts. */
  lemma SkipToComponentStart(p: string, i: nat)
    requires i < |p| && AtBoundary(p, i)
    ensures ComponentStart(p, SkipSlashes(p, i))
  {
    var j := SkipSlashes(p, i);
    if j > i {
      assert p[j - 1] == '/';
    }
  }

  /** From a boundary, a path without `..` components takes no `Up` step, and every other
      step that moves on lands on a boundary again. */
  lemma NoDotDotNoUpStep(s: State, p: string, i: nat, cur: nat)
    requires Consistent(s) && i < |p| && cur in s.inodes && AtBoundary(p, i) && NoDotDotComponent(p)
    ensures !NextStep(s, p, i, cur).Up?
    ensures NextStep(s, p, i, cur).Dot? ==> AtBoundary(p, NextStep(s, p, i, cur).next)
    ensures NextStep(s, p, i, cur).Descend? ==> AtBoundary(p, NextStep(s, p, i, cur).next)
  {
    var j := SkipSlashes(p, i);
    SkipToComponentStart(p, i);
    var k := ComponentEnd(p, j);
    assert p[j..k] != "..";
    if p[j..k] == "." {
      assert k == j + 1;
    }
  }

  /** Without a `..` component the walk abandons no directory. */
  lemma {:induction false} WalkNoDotDotNoLeak(s: State, p: string, i: nat, cur: nat, res: nat)
    requires Consistent(s) && i <= |p| && cur in s.inodes && AtBoundary(p, i) && NoDotDotComponent(p)
    ensures Walk(s, p, i, cur, res).ups == []
    decreases |p| - i
  {
    if i < |p| {
      NoDotDotNoUpStep(s, p, i, cur);
      match NextStep(s, p, i, cur)
      case Dot(next) => WalkNoDotDotNoLeak(s, p, next, cur, cur);
      case Miss(at) =>
      case Descend(next, found) =>
        WalkNoDotDotNoLeak(Release(s.(held := s.held + multiset{found}), cur), p, next, found, found);
    }
  }

  /** A lookup whose path has no `..` component releases every reference it takes. */
  lemma LookupNoDotDotBalanced(s: State, dir: nat, path: string)
    requires Consistent(s) && NoDotDotComponent(path)
    ensures Lookup(s, dir, path).s.held == s.held
  {
    var start := StartDir(dir);
    if start in s.inodes && IsDir(s.inodes[start].mode) {
      WalkNoDotDotNoLeak(s.(held := s.held + multiset{start}), path, 0, start, 0);
    }
  }

  /** `.` resolves to the starting directory itself and consumes one character. */
  lemma LookupDot(s: State, dir: nat)
    requires Consistent(s) && StartDir(dir) in s.inodes && IsDir(s.inodes[StartDir(dir)].mode)
    ensures Lookup(s, dir, ".").ret == 1
    ensures Lookup(s, dir, ".").res == StartDir(dir)
    ensures Lookup(s, dir, ".").s.held == s.held
  {
    var start := StartDir(dir);
    var s1 := s.(held := s.held + multiset{start});
    assert NextStep(s1, ".", 0, start) == Dot(1);
  }

  /** `..` resolves to the cached parent, consumes two characters, and leaves the starting
      directory's reference behind. */
  lemma LookupDotDot(s: State, dir: nat)
    requires Consistent(s) && StartDir(dir) in s.inodes && IsDir(s.inodes[StartDir(dir)].mode)
    ensures Lookup(s, dir, "..").ret == 2
    ensures Lookup(s, dir, "..").res == s.inodes[StartDir(dir)].parent
    ensures Lookup(s, dir, "..").s.held == s.held + multiset{StartDir(dir)}
  {
    var start := StartDir(dir);
    var s1 := s.(held := s.held + multiset{start});
    var up := s.inodes[start].parent;
    assert NextStep(s1, "..", 0, start) == Up(2, up);
    var s2 := s1.(held := s1.held + multiset{up});
    assert Walk(s2, "..", 2, up, up) == Walked(2, up, up, [], s2);
    assert Walk(s1, "..", 0, start, 0) == Walked(2, up, up, [start], s2);
  }

  /** A single component that the adapter hands to the engine. */
  predicate PlainName(n: string) {
    |n| > 0 && '/' !in n && n != "." && n != ".."
  }

  /** The extent of a plain name's only component is the whole name. */
  lemma PlainNameComponent(name: string)
    requires PlainName(name)
    ensures SkipSlashes(name, 0) == 0 && ComponentEnd(name, 0) == |name|
  {
  }

  /** A plain name that is an entry of the directory resolves to that entry and consumes its
      length, releasing every reference the lookup took. */
  lemma LookupPlainNameFound(s: State, dir: nat, name: string)
    requires Consistent(s) && StartDir(dir) in s.inodes && IsDir(s.inodes[StartDir(dir)].mode)
    requires PlainName(name) && name in s.inodes[StartDir(dir)].entries
    ensures Lookup(s, dir, name).ret == |name|
    ensures Lookup(s, dir, name).res == s.inodes[StartDir(dir)].entries[name]
    ensures Lookup(s, dir, name).s.held == s.held
  {
    var start := StartDir(dir);
    var s1 := s.(held := s.held + multiset{start});
    PlainNameComponent(name);
    assert name[0..|name|] == name;
    var found := s.inodes[start].entries[name];
    assert NextStep(s1, name, 0, start) == Descend(|name|, found);
    var s2 := Release(s1.(held := s1.held + multiset{found}), start);
    assert Walk(s1, name, 0, start, 0) == Walk(s2, name, |name|, found, found);
    assert Walk(s2, name, |name|, found, found) == Walked(|name|, found, found, [], s2);
  }

  /** A plain name that is not an entry of the directory fails with ENOENT. */
  lemma LookupPlainNameMissing(s: State, dir: nat, name: string)
    requires Consistent(s) && StartDir(dir) in s.inodes && IsDir(s.inodes[StartDir(dir)].mode)
    requires PlainName(name) && name !in s.inodes[StartDir(dir)].entries
    ensures Lookup(s, dir, name).ret == -ENOENT
    ensures Lookup(s, dir, name).s.held == s.held
  {
    var start := StartDir(dir);
    var s1 := s.(held := s.held + multiset{start});
    PlainNameComponent(name);
    assert name[0..|name|] == name;
    assert NextStep(s1, name, 0, start) == Miss(0);
  }

  /** A slash-free stretch `c` of the path at `j`, followed by a slash or the end, is the
      component that starts at `j`. */
  lemma ComponentOf(p: string, j: nat, c: string)
    requires j + |c| <= |p| && p[j..j + |c|] == c && '/' !in c
    requires j + |c| == |p| || p[j + |c|] == '/'
    ensures ComponentEnd(p, j) == j + |c| && p[j..ComponentEnd(p, j)] == c
  {
  }

  /** A slash at `i` followed by a plain name, then a slash or the end: the step at `i` skips
      the one slash and meets exactly that name. */
  lemma SlashThenComponent(p: string, i: nat, c: string)
    requires PlainName(c) && i + 1 + |c| <= |p| && p[i] == '/' && p[i + 1..i + 1 + |c|] == c
    requires i + 1 + |c| == |p| || p[i + 1 + |c|] == '/'
    ensures SkipSlashes(p, i) == i + 1
    ensures ComponentEnd(p, i + 1) == i + 1 + |c| && p[i + 1..i + 1 + |c|] == c
  {
    assert p[i + 1] == c[0];
    ComponentOf(p, i + 1, c);
  }

  /** Splitting `name + rest` after a plain name: the first component is the name. */
  lemma FirstComponent(name: string, rest: string)
    requires PlainName(name) && (rest == [] || rest[0] == '/')
    ensures SkipSlashes(name + rest, 0) == 0
    ensures ComponentEnd(name + rest, 0) == |name| && (name + rest)[0..|name|] == name
  {
    var p := name + rest;
    assert p[0] == name[0];
    assert p[0..|name|] == name;
    if |rest| > 0 {
      assert p[|name|] == rest[0];
    }
    ComponentOf(p, 0, name);
  }

  /** The resolver fails with ENOENT exactly when the start directory is a live directory and
      no component resolved: the path is empty or its first component is a miss. */
  lemma LookupEnoent(s: State, dir: nat, path: string)
    requires Consistent(s)
    ensures var start := StartDir(dir); var s1 := s.(held := s.held + multiset{start});
      Lookup(s, dir, path).ret == -ENOENT <==>
        start in s.inodes && IsDir(s.inodes[start].mode) && (path == [] || NextStep(s1, path, 0, start).Miss?)
  {
    var start := StartDir(dir);
    if start in s.inodes && IsDir(s.inodes[start].mode) && path != [] {
      var s1 := s.(held := s.held + multiset{start});
      match NextStep(s1, path, 0, start)
      case Dot(next) =>
        assert Walk(s1, path, 0, start, 0) == Walk(s1, path, next, start, start);
      case Up(next, up) =>
      case Miss(at) =>
      case Descend(next, found) =>
    }
  }

  /** A plain first component that is an entry of the start directory is followed by the rest
      of the walk from the entry's inode, which then holds the only reference. */
  lemma LookupDescend(s: State, dir: nat, name: string, rest: string)
    requires Consistent(s) && StartDir(dir) in s.inodes && IsDir(s.inodes[StartDir(dir)].mode)
    requires PlainName(name) && name in s.inodes[StartDir(dir)].entries
    requires rest == [] || rest[0] == '/'
    ensures var start := StartDir(dir); var found := s.inodes[start].entries[name];
      var s1 := s.(held := s.held + multiset{start});
      Walk(s1, name + rest, 0, start, 0)
        == Walk(Release(s1.(held := s1.held + multiset{found}), start), name + rest, |name|, found, found)
  {
    var start := StartDir(dir);
    var s1 := s.(held := s.held + multiset{start});
    FirstComponent(name, rest);
    assert NextStep(s1, name + rest, 0, start) == Descend(|name|, s.inodes[start].entries[name]);
  }

  /** A miss after a resolved component is not ENOENT: the resolver returns the length up to
      the missing component, and the inode resolved before it. */
  lemma LookupStopsAtLaterMiss(s: State, dir: nat, name: string, next: string, rest: string)
    requires Consistent(s) && StartDir(dir) in s.inodes && IsDir(s.inodes[StartDir(dir)].mode)
    requires PlainName(name) && name in s.inodes[StartDir(dir)].entries
    requires PlainName(next) && s.inodes[StartDir(dir)].entries[name] in s.inodes
    requires next !in s.inodes[s.inodes[StartDir(dir)].entries[name]].entries
    requires rest == [] || rest[0] == '/'
    ensures Lookup(s, dir, name + "/" + next + rest).ret == |name| + 1
    ensures Lookup(s, dir, name + "/" + next + rest).res == s.inodes[StartDir(dir)].entries[name]
    ensures Lookup(s, dir, name + "/" + next + rest).s.held == s.held
  {
    var start := StartDir(dir);
    var found := s.inodes[start].entries[name];
    var p := name + "/" + next + rest;
    var s1 := s.(held := s.held + multiset{start});
    var s2 := Release(s1.(held := s1.held + multiset{found}), start);
    LaterMissWalk(s1, start, name, next, rest, p);
    LookupFromWalk(s, dir, p, Walked(|name| + 1, found, found, [], s2));
    assert s2.held == s.held + multiset{found};
  }

  /** The walk of `name/next...` from `start`: it descends into the entry `name`, then stops
      just past the slash at `next`, which that entry does not have. */
  lemma LaterMissWalk(s: State, start: nat, name: string, next: string, rest: string, p: string)
    requires Consistent(s) && start in s.inodes && start in s.held
    requires PlainName(name) && name in s.inodes[start].entries && s.inodes[start].entries[name] in s.inodes
    requires PlainName(next) && next !in s.inodes[s.inodes[start].entries[name]].entries
    requires rest == [] || rest[0] == '/'
    requires p == name + "/" + next + rest
    ensures var found := s.inodes[start].entries[name];
      Walk(s, p, 0, start, 0) == Walked(|name| + 1, found, found, [], Release(s.(held := s.held + multiset{found}), start))
  {
    var found := s.inodes[start].entries[name];
    var tail := "/" + next + rest;
    assert p == name + tail && p[|name|..] == tail;
    FirstComponent(name, tail);
    assert NextStep(s, p, 0, start) == Descend(|name|, found);
    var s2 := Release(s.(held := s.held + multiset{found}), start);
    assert Walk(s, p, 0, start, 0) == Walk(s2, p, |name|, found, found);
    MissAfterSlash(s2, p, |name|, found, next, rest);
  }

  /** A walk from the start directory that sets a result determines the lookup's outcome. */
  lemma LookupFromWalk(s: State, dir: nat, path: string, w: Walked)
    requires Consistent(s) && StartDir(dir) in s.inodes && IsDir(s.inodes[StartDir(dir)].mode)
    requires Walk(s.(held := s.held + multiset{StartDir(dir)}), path, 0, StartDir(dir), 0) == w && w.res != 0
    ensures Lookup(s, dir, path) == LookupOut(w.len, w.res, multiset(w.ups), Release(w.s, w.cur))
  {
  }

  /** The walk at a slash followed by a name the current inode does not have stops just
      past the slash. */
  lemma MissAfterSlash(s: State, p: string, i: nat, cur: nat, next: string, rest: string)
    requires Consistent(s) && cur in s.inodes && PlainName(next) && next !in s.inodes[cur].entries
    requires rest == [] || rest[0] == '/'
    requires i < |p| && p[i..] == "/" + next + rest
    ensures Walk(s, p, i, cur, cur) == Walked(i + 1, cur, cur, [], s)
  {
    assert p[i] == '/';
    assert p[i + 1..i + 1 + |next|] == next by {
      assert p[i + 1..i + 1 + |next|] == p[i..][1..1 + |next|];
    }
    if |rest| > 0 {
      assert p[i + 1 + |next|] == p[i..][1 + |next|];
    }
    SlashThenComponent(p, i, next);
    assert NextStep(s, p, i, cur) == Miss(i + 1);
  }

  /** A missing first component stops the walk: whatever follows it, the lookup fails with
      ENOENT. */
  lemma LookupStopsAtMiss(s: State, dir: nat, name: string, rest: string)
    requires Consistent(s) && StartDir(dir) in s.inodes && IsDir(s.inodes[StartDir(dir)].mode)
    requires PlainName(name) && name !in s.inodes[StartDir(dir)].entries
    requires rest == [] || rest[0] == '/'
    ensures Lookup(s, dir, name + rest).ret == -ENOENT
  {
    var start := StartDir(dir);
    var s1 := s.(held := s.held + multiset{start});
    FirstComponent(name, rest);
    assert NextStep(s1, name + rest, 0, start) == Miss(0);
  }
}

=== FILE: posix.dfy ===
/** Error numbers, mode bits and the C integer conversions the adapter relies on.
    Mode values are the non-negative integers held in an inode's i_mode; bit operations
    on them are written with division and remainder. */
module Posix {

  const EOK: int := 0
  const ENOENT: int := 2
  const ENOMEM: int := 12
  const EEXIST: int := 17
  const ENOTDIR: int := 20
  const EISDIR: int := 21
  const EINVAL: int := 22

  const S_IFMT: nat := 0xF000
  const S_IFIFO: nat := 0x1000
  const S_IFCHR: nat := 0x2000
  const S_IFDIR: nat := 0x4000
  const S_IFBLK: nat := 0x6000
  const S_IFREG: nat := 0x8000
  const S_IFLNK: nat := 0xA000
  const S_IFSOCK: nat := 0xC000
  const S_IRWXU: nat := 0x1C0
  const S_IRWXG: nat := 0x38
  const S_IRWXO: nat := 0x7

  /** Object types of the Phoenix file protocol (sys/file.h, in declaration order). */
  const OT_DIR: int := 0
  const OT_FILE: int := 1
  const OT_DEV: int := 2
  const OT_UNKNOWN: int := 4

  /** C `unsigned long` / `uint32_t` on the 32-bit targets the server runs on. */
  type u32 = x: int | 0 <= x < 0x1_0000_0000

  /** C `int`. */
  type i32 = x: int | -0x8000_0000 <= x < 0x8000_0000

  /** Result codes of engine primitives: zero or a negated errno. */
  type EngineCode = c: int | c <= 0

  /** `m & S_IFMT`. */
  function Format(m: nat): (f: nat)
    ensures f % 0x1000 == 0 && f <= S_IFMT
    ensures m - f == m % 0x1000 + (m / 0x10000) * 0x10000
  {
    var q := m / 0x1000;
    assert m == q * 0x1000 + m % 0x1000;
    assert q == q / 16 * 16 + q % 16;
    assert q / 16 == m / 0x10000;
    (q % 16) * 0x1000
  }

  predicate IsDir(m: nat) { Format(m) == S_IFDIR }

  predicate IsReg(m: nat) { Format(m) == S_IFREG }

  predicate IsChr(m: nat) { Format(m) == S_IFCHR }

  /** `(m >> 14) & 1`, the test readdir uses in place of S_ISDIR. */
  predicate Bit14(m: nat) { m / 0x4000 % 2 == 1 }

  /** Bit 14 lies inside the format field, so it is a property of the file type alone. */
  lemma Bit14OfFormat(m: nat)
    ensures Bit14(m) <==> Format(m) / 0x4000 % 2 == 1
  {
    var q := m / 0x1000;
    var b := q % 16;
    assert Format(m) == b * 0x1000;
    FormatQuarter(b);
    NibbleQuarter(m);
    ParityOfQuarter(q);
  }

  lemma FormatQuarter(b: nat)
    ensures b * 0x1000 / 0x4000 == b / 4
  {
  }

  lemma NibbleQuarter(m: nat)
    ensures m / 0x4000 == m / 0x1000 / 4
  {
  }

  lemma ParityOfQuarter(q: nat)
    ensures q / 4 % 2 == q % 16 / 4 % 2
  {
    QuarterSplit(q);
    ParityShift(q / 16, q % 16 / 4);
  }

  lemma QuarterSplit(q: nat)
    ensures q / 4 == 4 * (q / 16) + q % 16 / 4
  {
    assert q == 16 * (q / 16) + q % 16;
  }

  lemma ParityShift(a: nat, c: nat)
    ensures (4 * a + c) % 2 == c % 2
  {
    var k := 2 * a + c / 2;
    assert 4 * a + c == 2 * k + c % 2;
    ModTwo(4 * a + c, k, c % 2);
  }

  lemma ModTwo(x: int, k: int, r: int)
    requires x == 2 * k + r && 0 <= r < 2
    ensures x % 2 == r
  {
  }

  /** The bit-14 test accepts directories, but also block devices and sockets; it refuses
      regular files, character devices, FIFOs and symbolic links. */
  lemma Bit14Formats(m: nat)
    ensures IsDir(m) || Format(m) == S_IFBLK || Format(m) == S_IFSOCK ==> Bit14(m)
    ensures IsReg(m) || IsChr(m) || Format(m) == S_IFIFO || Format(m) == S_IFLNK ==> !Bit14(m)
  {
    Bit14OfFormat(m);
  }

  /** Conversion to C `int`: two's-complement wrap-around modulo 2^32. */
  function ToI32(x: int): (r: i32)
    ensures (r - x) % 0x1_0000_0000 == 0
    ensures -0x8000_0000 <= x < 0x8000_0000 ==> r == x
  {
    var m := x % 0x1_0000_0000;
    if m < 0x8000_0000 then m else m - 0x1_0000_0000
  }

  /** `x & 0xffff` for a two's-complement integer. */
  function Low16(x: int): (r: nat)
    ensures r < 0x10000
    ensures (x - r) % 0x10000 == 0
  {
    x % 0x10000
  }

  /** `m & ~0xffff`. */
  function High(m: nat): (r: nat)
    ensures r % 0x10000 == 0
    ensures r <= m < r + 0x10000
  {
    m / 0x10000 * 0x10000
  }
}

=== FILE: readwrite.dfy ===
/** File data requests: `jffs2_srv_read`, the hole-extending `jffs2_srv_prepare_write`, and
    `jffs2_srv_write`. The bytes themselves are not modelled; what is modelled is the length
    arithmetic, the inode's size and block count, the nodes committed to the log, and the
    pairing of references, semaphore and space reservation. */
module ReadWrite {
  import opened Posix
  import opened Engine
  import opened Attributes

  datatype RwOut = RwOut(ret: int, s: State)

  function Max(a: int, b: int): int {
    if a < b then b else a
  }

  /** `len > i_size - offs ? i_size - offs : len`: how many bytes a read at `offs` can return
      from a file of `size` bytes. */
  function Clamp(size: u32, offs: int, len: u32): (n: int)
    requires offs <= size
    ensures 0 <= n <= len && offs + n <= size
    ensures n == len || offs + n == size
  {
    if len > size - offs then size - offs else len
  }

  /** `jffs2_srv_read(oid, offs, data, len)` with the outcome `rc` of the engine's
      `jffs2_read_inode_range`. */
  function Read(s: State, id: nat, offs: int, len: u32, rc: EngineCode): (r: RwOut)
    ensures id == 0 || id !in s.inodes ==> r == RwOut(-EINVAL, s)
    ensures id != 0 && id in s.inodes && IsDir(s.inodes[id].mode) ==> r == RwOut(-EISDIR, s)
    // past the end of the file: no bytes, and the reference taken is never dropped
    ensures id != 0 && id in s.inodes && !IsDir(s.inodes[id].mode) && s.inodes[id].size < offs ==>
      r == RwOut(0, s.(held := s.held + multiset{id}))
    ensures id != 0 && id in s.inodes && !IsDir(s.inodes[id].mode) && offs <= s.inodes[id].size ==>
      && r.s.held == s.held
      && (rc != 0 ==> r.ret == rc)
      && (rc == 0 ==> r.ret == ToI32(Clamp(s.inodes[id].size, offs, len)))
    ensures SameContents(s, r.s) && r.s.reserved == s.reserved
    ensures id !in s.locked ==> r.s.locked == s.locked
  {
    if id == 0 then RwOut(-EINVAL, s)
    else
      match Acquire(s, id)
      case None => RwOut(-EINVAL, s)
      case Some(s1) =>
        assert Release(s1, id) == s by { assert s1.held - multiset{id} == s.held; }
        var ino := s1.inodes[id];
        if IsDir(ino.mode) then RwOut(-EISDIR, Release(s1, id))
        else if ino.size < offs then RwOut(0, s1)
        else
          // the engine read runs under the inode's semaphore
          var s2 := Unlock(Lock(s1, id), id);
          var ret := if rc == 0 then ToI32(Clamp(ino.size, offs, len)) else rc;
          RwOut(ret, Release(s2, id))
  }

  /** The raw inode the extend phase commits: no payload (`csize` 0, compression "zero"),
      covering the file from its current size up to `len`. The on-medium uid and gid are
      16 bits wide. */
  function HoleNode(id: nat, ino: Inode, version: nat, len: u32): (n: Node)
    requires ino.size < len
    ensures n.ino == id && n.version == version && n.crcSet && !n.obsolete
    ensures n.offset == ino.size && n.offset + n.dsize == len && n.isize == len
    ensures n.csize == 0 && n.compr == ComprZero
    ensures n.mode == ino.mode && n.uid % 0x10000 == ino.uid % 0x10000 && n.gid % 0x10000 == ino.gid % 0x10000
  {
    Node(id, version, ino.mode, Low16(ino.uid), Low16(ino.gid), Max(ino.size, len), ino.size, len - ino.size,
         0, ComprZero, true, false)
  }

  /** Outcomes of the three engine calls of the extend phase: `jffs2_reserve_space`,
      `jffs2_write_dnode` and `jffs2_add_full_dnode_to_inode`. */
  datatype ExtendOutcome = ExtendOutcome(reserve: EngineCode, dnode: EngineCode, add: EngineCode)

  /** The fields of an inode the extend phase never touches. */
  predicate SameAttributes(a: Inode, b: Inode) {
    a.mode == b.mode && a.uid == b.uid && a.gid == b.gid && a.blocks == b.blocks && a.rdev == b.rdev
    && a.parent == b.parent && a.entries == b.entries
  }

  /** The extend phase returns zero when no hole is needed or every engine call succeeds, and
      otherwise the first failure. */
  function ExtendCode(size: u32, len: u32, o: ExtendOutcome): (c: int)
    ensures c == 0 <==> len <= size || (o.reserve == 0 && o.dnode == 0 && o.add == 0)
    ensures c != 0 ==> len > size && (c == o.reserve || (o.reserve == 0 && (c == o.dnode || (o.dnode == 0 && c == o.add))))
  {
    if len <= size then 0
    else if o.reserve != 0 then o.reserve
    else if o.dnode != 0 then o.dnode
    else o.add
  }

  /** Whether the extend phase got as far as committing its hole node to the log. */
  predicate HoleCommitted(size: u32, len: u32, o: ExtendOutcome) {
    len > size && o.reserve == 0 && o.dnode == 0
  }

  /** `jffs2_srv_prepare_write(inode, offs, len)`: when `len` lies beyond the file's size,
      commits a hole node extending the file to `len` and then sets the size to `len`. */
  function PrepareWrite(s: State, id: nat, len: u32, o: ExtendOutcome): (r: RwOut)
    requires id in s.inodes && MetadataInLog(s.inodes, |s.log|)
    ensures r.s.inodes.Keys == s.inodes.Keys
    ensures r.ret == ExtendCode(s.inodes[id].size, len, o)
    ensures len <= s.inodes[id].size || o.reserve != 0 ==> r.s == s
    // rollback: a failure leaves the size as it was; success sets it to `len`
    ensures r.ret != 0 ==> r.s.inodes[id].size == s.inodes[id].size
    ensures r.ret == 0 ==> r.s.inodes[id].size == Max(s.inodes[id].size, len)
    ensures SameAttributes(r.s.inodes[id], s.inodes[id])
    // the version is consumed as soon as the space is reserved, even if the node write fails
    ensures len > s.inodes[id].size && o.reserve == 0 ==> r.s.inodes[id].highestVersion == s.inodes[id].highestVersion + 1
    ensures !HoleCommitted(s.inodes[id].size, len, o) ==> r.s.log == s.log && r.s.inodes[id].metadata == s.inodes[id].metadata
    // a committed hole node stays live only if the add succeeded; the superseded metadata node
    // is obsoleted either way
    ensures HoleCommitted(s.inodes[id].size, len, o) ==>
      && |r.s.log| == |s.log| + 1
      && r.s.log[|s.log|] == HoleNode(id, s.inodes[id], s.inodes[id].highestVersion + 1, len).(obsolete := o.add != 0)
      && r.s.inodes[id].metadata == None
      && (forall j :: 0 <= j < |s.log| && Some(j) != s.inodes[id].metadata ==> r.s.log[j] == s.log[j])
      && (forall j :: 0 <= j < |s.log| && Some(j) == s.inodes[id].metadata ==> r.s.log[j] == s.log[j].(obsolete := true))
    ensures forall other :: other in s.inodes && other != id ==> r.s.inodes[other] == s.inodes[other]
    ensures r.s.port == s.port && r.s.highestIno == s.highestIno && r.s.held == s.held
    // the semaphore and the reservation are given back on every path
    ensures id !in s.locked ==> r.s.locked == s.locked
    ensures !s.reserved ==> !r.s.reserved
  {
    var ino := s.inodes[id];
    if len <= ino.size then RwOut(0, s)
    else if o.reserve != 0 then RwOut(o.reserve, s)
    else
      var s1 := Lock(Reserve(s), id);
      var ino1 := ino.(highestVersion := ino.highestVersion + 1);
      if o.dnode != 0 then
        RwOut(o.dnode, Unlock(CompleteReservation(SetInode(s1, id, ino1)), id))
      else
        Commit(s1, id, ino1, HoleNode(id, ino, ino1.highestVersion, len), len, o.add)
  }

  /** The extend phase after `jffs2_write_dnode` put `hole` on the medium: the previous
      metadata node is obsoleted and dropped, then the hole node is either kept and the size
      raised to `len`, or, when the add failed, obsoleted in turn. */
  function Commit(s: State, id: nat, ino: Inode, hole: Node, len: u32, add: EngineCode): (r: RwOut)
    requires id in s.inodes && s.inodes[id].metadata == ino.metadata
    requires ino.metadata.Some? ==> ino.metadata.value < |s.log|
    ensures r.s.inodes.Keys == s.inodes.Keys
    ensures r.ret == add
    ensures |r.s.log| == |s.log| + 1 && r.s.log[|s.log|] == hole.(obsolete := hole.obsolete || add != 0)
    ensures forall j :: 0 <= j < |s.log| && Some(j) != ino.metadata ==> r.s.log[j] == s.log[j]
    ensures forall j :: 0 <= j < |s.log| && Some(j) == ino.metadata ==> r.s.log[j] == s.log[j].(obsolete := true)
    ensures r.s.inodes[id] == ino.(metadata := None, size := if add == 0 then len else ino.size)
    ensures forall other :: other in s.inodes && other != id ==> r.s.inodes[other] == s.inodes[other]
    ensures r.s.port == s.port && r.s.highestIno == s.highestIno && r.s.held == s.held
    ensures r.s.locked == s.locked - {id} && !r.s.reserved
  {
    var k := |s.log|;
    var log1 := s.log + [hole];
    var log2 := if ino.metadata.Some? then MarkObsolete(log1, ino.metadata.value) else log1;
    var ino2 := ino.(metadata := None);
    if add != 0 then
      var s2 := SetInode(s, id, ino2).(log := MarkObsolete(log2, k));
      RwOut(add, Unlock(CompleteReservation(s2), id))
    else
      var s2 := SetInode(s, id, ino2.(size := len)).(log := log2);
      RwOut(0, Unlock(CompleteReservation(s2), id))
  }

  /** Outcomes of the engine calls a write makes: whether the raw inode could be allocated,
      the extend phase's outcomes, and the result and `writelen` of `jffs2_write_inode_range`. */
  datatype WriteOutcome = WriteOutcome(alloc: bool, extend: ExtendOutcome, range: EngineCode, written: u32)

  /** `jffs2_srv_write(oid, offs, data, len)`. */
  function Write(s: State, id: nat, offs: int, len: u32, o: WriteOutcome): (r: RwOut)
    requires MetadataInLog(s.inodes, |s.log|)
    ensures id == 0 ==> r == RwOut(-EINVAL, s)
    ensures id != 0 && !o.alloc ==> r == RwOut(-ENOMEM, s)
    ensures id != 0 && o.alloc && id !in s.inodes ==> r == RwOut(-EINVAL, s)
    ensures id != 0 && o.alloc && id in s.inodes && IsDir(s.inodes[id].mode) ==> r == RwOut(-EISDIR, s)
    // the result is zero or a negated errno, never a byte count
    ensures r.ret <= 0
    ensures r.s.held == s.held
    ensures r.s.inodes.Keys == s.inodes.Keys
    ensures forall other :: other in s.inodes && other != id ==> r.s.inodes[other] == s.inodes[other]
    ensures r.s.port == s.port && r.s.highestIno == s.highestIno
    ensures id !in s.locked ==> r.s.locked == s.locked
    ensures !s.reserved ==> !r.s.reserved
    // a failed extend phase is returned as is, with the size unchanged
    ensures (id != 0 && o.alloc && id in s.inodes && !IsDir(s.inodes[id].mode)
             && ExtendCode(s.inodes[id].size, len, o.extend) != 0) ==>
      r.ret == ExtendCode(s.inodes[id].size, len, o.extend) && r.s.inodes[id].size == s.inodes[id].size
    // after the extend phase the size is at least `len` even when the range write fails; a
    // successful range write raises it to `writelen` if that is larger, with the block count
    ensures (id != 0 && o.alloc && id in s.inodes && !IsDir(s.inodes[id].mode)
             && ExtendCode(s.inodes[id].size, len, o.extend) == 0) ==>
      var extended := Max(s.inodes[id].size, len);
      && r.ret == o.range
      && (o.range == 0 && o.written > extended ==>
            r.s.inodes[id].size == o.written && r.s.inodes[id].blocks == Blocks(o.written))
      && (o.range != 0 || o.written <= extended ==>
            r.s.inodes[id].size == extended && r.s.inodes[id].blocks == s.inodes[id].blocks)
  {
    if id == 0 then RwOut(-EINVAL, s)
    else if !o.alloc then RwOut(-ENOMEM, s)
    else
      match Acquire(s, id)
      case None => RwOut(-EINVAL, s)
      case Some(s1) =>
        assert Release(s1, id) == s by { assert s1.held - multiset{id} == s.held; }
        if IsDir(s1.inodes[id].mode) then RwOut(-EISDIR, Release(s1, id))
        else
          var p := PrepareWrite(s1, id, len, o.extend);
          if p.ret != 0 then RwOut(p.ret, Release(p.s, id))
          else
            // the range write's own data nodes are not modelled, only its result and writelen
            var ino := p.s.inodes[id];
            if o.range == 0 && o.written > ino.size then
              RwOut(0, Release(SetInode(p.s, id, ino.(size := o.written, blocks := Blocks(o.written))), id))
            else
              RwOut(o.range, Release(p.s, id))
  }
}

=== FILE: rw_facts.dfy ===
/** Properties of the read and write paths: the clamp, the hole the extend phase leaves
    behind, what a write does to the size, and consistency of the filesystem. */
module ReadWriteFacts {
  import opened Posix
  import opened Engine
  import opened Attributes
  import opened ReadWrite

  /** A successful read never reports bytes beyond the end of the file, and reports every
      requested byte that lies before it. */
  lemma ReadWithinFile(s: State, id: nat, offs: int, len: u32)
    requires id != 0 && id in s.inodes && !IsDir(s.inodes[id].mode)
    requires 0 <= offs <= s.inodes[id].size && len < 0x8000_0000
    ensures var n := Read(s, id, offs, len, 0).ret;
      && 0 <= n <= len && offs + n <= s.inodes[id].size
      && (offs + len <= s.inodes[id].size ==> n == len)
  {
    var n := Read(s, id, offs, len, 0).ret;
    assert n == Clamp(s.inodes[id].size, offs, len);
  }

  /** A read at the end of the file returns zero bytes, like one past it; only the latter
      keeps the inode's reference. */
  lemma ReadAtEndIsEmpty(s: State, id: nat, len: u32)
    requires id != 0 && id in s.inodes && !IsDir(s.inodes[id].mode)
    ensures Read(s, id, s.inodes[id].size, len, 0).ret == 0
    ensures Read(s, id, s.inodes[id].size, len, 0).s.held == s.held
    ensures Read(s, id, s.inodes[id].size + 1, len, 0).ret == 0
    ensures Read(s, id, s.inodes[id].size + 1, len, 0).s.held == s.held + multiset{id}
  {
  }

  /** After a successful extend the file's new end is backed by a live hole node that starts
      at the old end. */
  lemma ExtendBacksNewSize(s: State, id: nat, len: u32)
    requires id in s.inodes && MetadataInLog(s.inodes, |s.log|) && s.inodes[id].size < len
    ensures var r := PrepareWrite(s, id, len, ExtendOutcome(0, 0, 0));
      && r.ret == 0
      && |r.s.log| == |s.log| + 1
      && !r.s.log[|s.log|].obsolete
      && r.s.log[|s.log|].offset == s.inodes[id].size
      && r.s.log[|s.log|].offset + r.s.log[|s.log|].dsize == r.s.inodes[id].size
  {
    var ino := s.inodes[id];
    var hole := HoleNode(id, ino, ino.highestVersion + 1, len);
    assert hole.(obsolete := false) == hole;
  }

  /** A failed add undoes the extend: the size stays, and the hole node is in the log but
      obsolete. */
  lemma ExtendRollback(s: State, id: nat, len: u32, add: EngineCode)
    requires id in s.inodes && MetadataInLog(s.inodes, |s.log|) && s.inodes[id].size < len && add != 0
    ensures var r := PrepareWrite(s, id, len, ExtendOutcome(0, 0, add));
      && r.ret == add
      && r.s.inodes[id].size == s.inodes[id].size
      && |r.s.log| == |s.log| + 1 && r.s.log[|s.log|].obsolete
  {
  }

  /** The extend phase is idempotent: once it has succeeded, running it again for the same
      length does nothing, whatever the engine would answer. */
  lemma ExtendIdempotent(s: State, id: nat, len: u32, o: ExtendOutcome, o2: ExtendOutcome)
    requires Consistent(s) && id in s.inodes
    ensures var r := PrepareWrite(s, id, len, o);
      r.ret == 0 ==> MetadataInLog(r.s.inodes, |r.s.log|) && PrepareWrite(r.s, id, len, o2) == RwOut(0, r.s)
  {
    var r := PrepareWrite(s, id, len, o);
    PrepareWriteKeepsConsistent(s, id, len, o);
  }

  /** The extend phase keeps the filesystem consistent on every path. */
  lemma PrepareWriteKeepsConsistent(s: State, id: nat, len: u32, o: ExtendOutcome)
    requires Consistent(s) && id in s.inodes
    ensures Consistent(PrepareWrite(s, id, len, o).s)
  {
    var r := PrepareWrite(s, id, len, o);
    UpdateConsistent(s, r.s, id);
  }

  /** A write keeps the filesystem consistent on every path. */
  lemma WriteKeepsConsistent(s: State, id: nat, offs: int, len: u32, o: WriteOutcome)
    requires Consistent(s)
    ensures Consistent(Write(s, id, offs, len, o).s)
  {
    var r := Write(s, id, offs, len, o);
    if id != 0 && o.alloc && id in s.inodes && !IsDir(s.inodes[id].mode) {
      var s1 := s.(held := s.held + multiset{id});
      PrepareWriteKeepsConsistent(s1, id, len, o.extend);
      var p := PrepareWrite(s1, id, len, o.extend);
      if p.ret == 0 && o.range == 0 && o.written > p.s.inodes[id].size {
        UpdateConsistent(s, r.s, id);
      }
    }
  }

  /** The size a write leaves is `writelen` or the extend target `len`, never the end of the
      written range: a 10-byte write at offset 1000 into an empty file leaves it 10 bytes
      long. */
  lemma WriteSizeIgnoresOffset(s: State, id: nat)
    requires id != 0 && id in s.inodes && !IsDir(s.inodes[id].mode) && s.inodes[id].size == 0
    requires MetadataInLog(s.inodes, |s.log|)
    ensures var r := Write(s, id, 1000, 10, WriteOutcome(true, ExtendOutcome(0, 0, 0), 0, 10));
      r.ret == 0 && r.s.inodes[id].size == 10
  {
  }

  /** A range write that fails after a successful extend leaves the committed hole in place:
      the size stays at the extend target and the hole node stays live. */
  lemma FailedWriteKeepsHole(s: State, id: nat, offs: int, len: u32, range: EngineCode, written: u32)
    requires id != 0 && id in s.inodes && !IsDir(s.inodes[id].mode) && s.inodes[id].size < len
    requires MetadataInLog(s.inodes, |s.log|) && range != 0
    ensures var r := Write(s, id, offs, len, WriteOutcome(true, ExtendOutcome(0, 0, 0), range, written));
      && r.ret == range
      && r.s.inodes[id].size == len
      && |r.s.log| == |s.log| + 1 && !r.s.log[|s.log|].obsolete
      && r.s.log[|s.log|].offset + r.s.log[|s.log|].dsize == len
  {
    var s1 := s.(held := s.held + multiset{id});
    ExtendBacksNewSize(s1, id, len);
  }
}

=== FILE: server.dfy ===
/** The request table of the server loop: which handler each message type reaches, which
    reply field receives its result, and what the engine state becomes. Receiving and
    responding are not modelled; the outcomes of the engine calls a request makes travel
    with the request. */
module Server {
  import opened Posix
  import opened Engine
  import opened PathLookup
  import opened Attributes
  import opened DirOps
  import opened ReadWrite
  import opened DirFacts
  import opened ReadWriteFacts

  /** A request of the file protocol, by message type, with the engine outcomes it meets. */
  datatype Request =
    | OpenReq(id: nat)
    | CloseReq(id: nat)
    | ReadReq(id: nat, offs: int, size: u32, rc: EngineCode)
    | WriteReq(id: nat, offs: int, size: u32, wo: WriteOutcome)
    | TruncateReq(id: nat, len: u32, code: EngineCode)
    | DevCtlReq
    | CreateReq(dir: nat, name: string, oid: Oid, otype: int, mode: int, code: EngineCode)
    | DestroyReq(oid: Oid)
    | SetAttrReq(id: nat, sel: int, val: i32, code: EngineCode)
    | GetAttrReq(id: nat, sel: int, prev: int)
    | LookupReq(dir: nat, name: string)
    | LinkReq(dir: nat, name: string, target: nat, code: EngineCode)
    | UnlinkReq(dir: nat, name: string, code: EngineCode)
    | ReaddirReq(dir: nat, offs: int, enumerate: DirContext -> DirContext)
    | OtherReq(mtype: int)             // a type the switch has no case for

  /** What the response carries back: nothing beyond the request (`Silent`), the io error
      field, the create error and object id, the attribute value, or the lookup error and
      result id. */
  datatype Reply =
    | Silent
    | IoErr(err: int)
    | Created(err: int, oid: Oid)
    | AttrVal(val: int)
    | Resolved(err: int, res: nat)

  datatype Served = Served(reply: Reply, s: State)

  /** One pass of the `switch (msg.type)` in the server loop. */
  function Serve(s: State, req: Request): (r: Served)
    requires Consistent(s)
    // setattr's result is dropped, so the caller never sees a refused change
    ensures req.SetAttrReq? || req.OpenReq? || req.CloseReq? || req.OtherReq? <==> r.reply == Silent
    ensures req.DevCtlReq? ==> r == Served(IoErr(-EINVAL), s)
    ensures req.OpenReq? || req.CloseReq? || req.DestroyReq? || req.OtherReq? ==> r.s == s
    ensures req.GetAttrReq? ==> r.reply.AttrVal?
    ensures req.CreateReq? ==> r.reply.Created?
    ensures req.LookupReq? ==> r.reply.Resolved?
    ensures r.s.port == s.port
  {
    match req
    case OpenReq(_) => Served(Silent, s)
    case CloseReq(_) => Served(Silent, s)
    case ReadReq(id, offs, size, rc) =>
      var o := Read(s, id, offs, size, rc);
      Served(IoErr(o.ret), o.s)
    case WriteReq(id, offs, size, wo) =>
      var o := Write(s, id, offs, size, wo);
      Served(IoErr(o.ret), o.s)
    case TruncateReq(id, len, code) =>
      var o := Truncate(s, id, len, code);
      Served(IoErr(o.ret), o.s)
    case DevCtlReq => Served(IoErr(-EINVAL), s)
    case CreateReq(dir, name, oid, otype, mode, code) =>
      var o := Create(s, dir, name, oid, otype, mode, code);
      Served(Created(o.ret, o.oid), o.s)
    case DestroyReq(oid) =>
      var o := Destroy(s, oid);
      Served(IoErr(o.ret), o.s)
    case SetAttrReq(id, sel, val, code) =>
      Served(Silent, Setattr(s, id, sel, val, code).s)
    case GetAttrReq(id, sel, prev) =>
      var o := Getattr(s, id, sel, prev);
      Served(AttrVal(o.val), o.s)
    case LookupReq(dir, name) =>
      var o := Lookup(s, dir, name);
      Served(Resolved(o.ret, o.res), o.s)
    case LinkReq(dir, name, target, code) =>
      var o := Link(s, dir, name, target, code);
      Served(IoErr(o.ret), o.s)
    case UnlinkReq(dir, name, code) =>
      var o := Unlink(s, dir, name, code);
      Served(IoErr(o.ret), o.s)
    case ReaddirReq(dir, offs, enumerate) =>
      var o := Readdir(s, dir, offs, enumerate);
      Served(IoErr(o.ret), o.s)
    case OtherReq(_) => Served(Silent, s)
  }

  /** Every request leaves the filesystem consistent, so the server loop keeps it consistent
      across any sequence of requests. */
  lemma ServeKeepsConsistent(s: State, req: Request)
    requires Consistent(s)
    ensures Consistent(Serve(s, req).s)
  {
    match req
    case OpenReq(_) =>
    case CloseReq(_) =>
    case ReadReq(id, offs, size, rc) =>
    case WriteReq(id, offs, size, wo) => WriteKeepsConsistent(s, id, offs, size, wo);
    case TruncateReq(id, len, code) => SetattrKeepsConsistent(s, id, AT_SIZE, ToI32(len), code);
    case DevCtlReq =>
    case CreateReq(dir, name, oid, otype, mode, code) => CreateKeepsConsistent(s, dir, name, oid, otype, mode, code);
    case DestroyReq(oid) =>
    case SetAttrReq(id, sel, val, code) => SetattrKeepsConsistent(s, id, sel, val, code);
    case GetAttrReq(id, sel, prev) =>
    case LookupReq(dir, name) =>
    case LinkReq(dir, name, target, code) => LinkKeepsConsistent(s, dir, name, target, code);
    case UnlinkReq(dir, name, code) => UnlinkNeverRemoves(s, dir, name, code);
    case ReaddirReq(dir, offs, enumerate) =>
    case OtherReq(_) =>
  }

  /** The server loop over a sequence of requests. */
  function ServeAll(s: State, reqs: seq<Request>): (r: State)
    requires Consistent(s)
    ensures Consistent(r) && r.port == s.port
    decreases |reqs|
  {
    if reqs == [] then s
    else
      ServeKeepsConsistent(s, reqs[0]);
      ServeAll(Serve(s, reqs[0]).s, reqs[1..])
  }

  /** Only writes, truncates, setattr, create and link can change what the filesystem holds:
      every other request leaves the inodes, the log and the inode counter as they were. */
  lemma ReadOnlyRequests(s: State, req: Request)
    requires Consistent(s)
    requires !req.WriteReq? && !req.TruncateReq? && !req.SetAttrReq? && !req.CreateReq? && !req.LinkReq?
    ensures SameContents(s, Serve(s, req).s)
  {
    if req.UnlinkReq? {
      UnlinkNeverRemoves(s, req.dir, req.name, req.code);
    }
  }
}
